=== FILE: README.md ===
# Document Q&A app, modelled in Dafny

The app answers questions about uploaded documents. Its back end has two
routes. `/upload` extracts a document's text and cuts it into paragraph-packed
chunks; each chunk is embedded and stored. `/chat` embeds a question and
retrieves the closest chunks. It then asks a language model for an answer and
returns that answer with the sources. The React front end has three parts:

- an upload form, which builds a metadata object and sends the file with
  progress and cancellation;
- a small history-based router;
- a chat page, which keeps the message log.

The model covers each of these as pure functions over immutable values:

- `Text`: Python `str.strip`/`split`/`join`/`lower` and decimal rendering, the
  pieces the code relies on.
- `Json`: the JSON values the two halves exchange. It also covers JavaScript
  property reads (including the TypeError on `null`) and how template strings
  render a value.
- `DocumentParser`: `chunk_text` as a loop (`ChunkText`) proved equal to a
  functional reference (`Pack`). `Pack` is in turn proved to be the only
  packing that obeys the greedy rule (`GreedyPacking`). The module also covers
  magic-byte detection, `Path.suffix` and the dispatch in `extract_text`.
- `UploadRouter`: `get_file_extension`, the chunk filter, metadata defaults
  and the `upload_file` handler.
- `Embeddings`: `get_embedding`'s input cleaning, the stored payload and the
  hit texts of `search_similar`.
- `ChatRouter`: the `/chat` handler, with the embedding, search and answer
  services as parameters.
- `UploadForm`: row edits, metadata assembly, response classification, and
  the form's state as its handlers and the request's callbacks change it.
- `MiniRouter`: `navigate`, the popstate listener, and route selection.
- `ChatWindow`: the message log through sending, replies and the messages
  added after an upload.

Every outside call is an uninterpreted function parameter:

- the PDF, DOCX and text readers;
- `json.loads` and `JSON.parse`;
- the embedding model, the vector search, the answer model and the store.

A request's outcome is an event carrying what the network delivered.

## Model

| member | source | states |
|---|---|---|
| `DocumentParser.ChunkText` | backend/services/document_parser.py:73-88 | The loop yields the chunks of the reference packing of the `"\n\n"` pieces. There is at least one chunk, and every chunk is stripped. It equals the chunks of any grouping that obeys the greedy rule. |
| `DocumentParser.PackIsGreedy` | backend/services/document_parser.py:79-84 | The reference packing obeys the greedy rule. Paragraphs stay in order. A paragraph joins the open group iff the group's text plus the paragraph fits the cap; otherwise it opens a new group. |
| `DocumentParser.GreedyPackingIsUnique` | backend/services/document_parser.py:79-87 | Any grouping that obeys the greedy rule is the reference packing, so the rule determines the chunks. |
| `DocumentParser.PackCoversParagraphs` | backend/services/document_parser.py:79-84 | Concatenating the groups gives back the paragraphs: none is lost, duplicated or reordered. |
| `DocumentParser.ChunkingKeepsText` | backend/services/document_parser.py:75-84 | Re-joining the grouped paragraphs with `"\n\n"` gives back the original text. |
| `DocumentParser.ChunksAreJoinedGroups` | backend/services/document_parser.py:79-87 | For non-empty input there is one chunk per group. Each chunk is its group's paragraphs joined with `"\n\n"` and stripped. |
| `DocumentParser.ChunksFitCap` | backend/services/document_parser.py:80-87 | When no paragraph is longer than the cap, no chunk is longer than the cap. |
| `DocumentParser.OversizedFirstParagraph` | backend/services/document_parser.py:80-83 | A first paragraph longer than the cap makes the first chunk the empty string, followed by at least one more chunk. |
| `DocumentParser.BlankTextChunksEmpty` | backend/services/document_parser.py:73-88 | A whitespace-only text yields only empty chunks. |
| `DocumentParser.ChunksEmptyIffBlank` | backend/services/document_parser.py:73-88 | Every chunk is empty iff the text is whitespace only: any other character survives into some chunk. |
| `DocumentParser.PackUnfold` | backend/services/document_parser.py:80-84 | Adding one paragraph either extends the open group or opens a new one, depending on the length test. |
| `DocumentParser.FormatExtensionRoundTrip` | backend/services/document_parser.py:63-68 | Each supported format's extension maps back to that format. |
| `DocumentParser.Header` | backend/services/document_parser.py:32-33 | The header is the first min(8, n) bytes of an n-byte file: the whole file when it is shorter than 8 bytes. |
| `DocumentParser.DetectFileType` | backend/services/document_parser.py:26-50 | Detection answers PDF iff the file starts with `%PDF`, and DOCX iff it is not PDF and starts with one of the three zip signatures. It answers text iff neither applies and the file decodes as UTF-8; otherwise it gives no answer. |
| `DocumentParser.HeaderDecides` | backend/services/document_parser.py:33-36 | Testing the 8-byte header gives the same answers as testing the whole file. |
| `DocumentParser.DetectionFailsOnlyOnUnreadable` | backend/services/document_parser.py:31-50 | Detection gives no answer exactly when the file cannot be opened, or when it has no known signature and is not UTF-8. |
| `DocumentParser.LastIndex` | backend/services/document_parser.py:53 | Returns the position of the last occurrence of a character, or -1 when the character is absent. |
| `DocumentParser.Suffix` | backend/services/document_parser.py:53 | `Path.suffix` is a tail of the final path component. It is non-empty iff the final component's last dot is neither its first nor its last character. A non-empty suffix is that dot and what follows, with no further dot or slash. |
| `DocumentParser.ExtractionFormat` | backend/services/document_parser.py:52-70 | Extraction proceeds iff the lower-cased suffix is supported, or there is no suffix and detection succeeds. Both error messages are modelled. |
| `DocumentParser.ExtractText` | backend/services/document_parser.py:52-70 | Once a format is chosen, the result is exactly that reader's, its error included. A dispatch error is passed through unchanged. |
| `DocumentParser.SuffixIgnoresContent` | backend/services/document_parser.py:53-61 | A path with a suffix is dispatched without looking at the file's bytes. |
| `DocumentParser.SuffixCaseInsensitive` | backend/services/document_parser.py:53 | A suffix that lower-cases to a supported extension selects that format. |
| `DocumentParser.OnlySupportedSuffixesRead` | backend/services/document_parser.py:69-70 | Any other suffix fails with the "Unsupported file type" message and reads nothing. |
| `DocumentParser.MissingSuffixDetects` | backend/services/document_parser.py:56-61 | Without a suffix, the detected format is read; if nothing is detected, the result is the "Cannot determine file type" error. |
| `DocumentParser.TempPathSuffix` | backend/routers/upload.py:44-46 | A temporary file named with a supported extension has exactly that suffix. |
| `DocumentParser.TempFileReadByExtension` | backend/routers/upload.py:42-48 | The temporary file is read by the reader of its extension's format. |
| `UploadRouter.MimeToFormat` | backend/routers/upload.py:13-17 | Exactly the three listed MIME types map to PDF, DOCX and text. |
| `UploadRouter.GetFileExtension` | backend/routers/upload.py:19-31 | The result is always supported. A supported suffix of the filename wins; otherwise the MIME table decides, defaulting to `.txt`. |
| `UploadRouter.SuffixTakesPrecedence` | backend/routers/upload.py:22-25 | With a supported suffix, the content type has no influence. |
| `UploadRouter.UnmappedMimeGivesText` | backend/routers/upload.py:28-31 | Without a supported suffix, any MIME type outside the table gives `.txt`. |
| `UploadRouter.MsWordIsText` | backend/routers/upload.py:13-31 | `application/msword` is not in the table, so a legacy Word upload without a suffix is read as text. |
| `UploadRouter.FilterMembers` | backend/routers/upload.py:51 | A chunk survives the filter iff it was present and passes the test. |
| `UploadRouter.FilterAppend` | backend/routers/upload.py:51 | Filtering distributes over concatenation, so the filter keeps order. |
| `UploadRouter.FilterChunksSpec` | backend/routers/upload.py:51 | A chunk is kept iff it is non-blank after stripping; filtering keeps order. |
| `UploadRouter.FilterDropsOnlyEmpty` | backend/routers/upload.py:51 | On stripped chunks, as the chunker makes them, the filter drops exactly the empty ones. |
| `UploadRouter.DefaultMetadata` | backend/routers/upload.py:62-73 | The default metadata has exactly title, author and description. The title falls back to `unknown_file`, and the description depends on why the default was used. |
| `UploadRouter.ResolveMetadata` | backend/routers/upload.py:57-73 | An absent or blank field gives the plain default. Otherwise the parsed JSON is used, or the "invalid JSON" default when parsing fails. |
| `UploadRouter.UploadFile` | backend/routers/upload.py:38-81 | Every failure is a 500 whose detail starts with "Error processing file: ". An extraction error and a store error are each passed on as that prefix plus their own text. No surviving chunk gives the prefix plus the caught 422's text. When chunks survive and the store accepts them, the answer is the number of chunks stored, which is at least one. |
| `UploadRouter.UploadReadsChosenFormat` | backend/routers/upload.py:42-48 | The handler's extraction is the reader for `get_file_extension`'s answer; content sniffing is never reached. |
| `UploadRouter.NoChunksIs500` | backend/routers/upload.py:49-81 | As written: when the extracted text is all whitespace, no chunk survives the filter. The 422 raised for that is caught again, and the client gets a 500 whose detail embeds "422: No valid text chunks…". |
| `UploadRouter.BlankTextHasNoChunks` | backend/routers/upload.py:49-54 | A whitespace-only document, the empty one included, leaves no storable chunk. |
| `UploadRouter.StoredChunksEmptyIffBlank` | backend/routers/upload.py:49-54 | No chunk survives the filter iff the extracted text is whitespace only, so the no-chunks refusal hits exactly the blank documents. |
| `UploadRouter.UploadFileCorrected` | backend/routers/upload.py:53-54 | Corrected: the no-chunks case answers 422 with the bare detail; every other outcome is the as-written one. |
| `UploadRouter.NoChunksIs422` | backend/routers/upload.py:49-54 | Corrected: the answer is the bare 422 iff extraction succeeded and left no storable chunk, that is, iff the extracted text is whitespace only. |
| `Embeddings.CleanInput` | backend/services/embeddings.py:31-42 | Empty input and whitespace-only input fail with their own messages; cleaning succeeds iff the input is not all whitespace. The cleaned text is a non-empty prefix of the stripped input, at most 8000 characters long. It is the whole stripped input when that fits, and exactly 8000 characters otherwise. |
| `Embeddings.CleanInputIgnoresPadding` | backend/services/embeddings.py:37-42 | Surrounding whitespace does not change the cleaned text or the error. |
| `Embeddings.GetEmbedding` | backend/services/embeddings.py:31-48 | A cleaning error is raised before the model is called; otherwise the model sees the cleaned text. |
| `Embeddings.Payload` | backend/services/embeddings.py:61 | The payload's keys are the metadata's plus `text`. Every metadata value is kept, and `text` holds the chunk unless the metadata names `text`. |
| `Embeddings.PayloadKeepsTextIffNoOverride` | backend/services/embeddings.py:61 | The stored text is the chunk iff the metadata has no `text` key or one with the same value. |
| `Embeddings.StoreTextEmbedding` | backend/services/embeddings.py:55-63 | A point is built iff embedding succeeds; it carries the vector, the payload and the given id. |
| `Embeddings.HitTexts` | backend/services/embeddings.py:72 | Succeeds iff every hit has `text`, giving one text per hit in hit order; otherwise the error is the `KeyError` text. |
| `Embeddings.SearchSimilar` | backend/services/embeddings.py:65-72 | An embedding error is passed on. After a successful embedding, a search error is passed on, and a successful search gives the texts of its hits (or the missing-`text` error). |
| `Embeddings.HitTextsAppend` | backend/services/embeddings.py:72 | Texts of concatenated hit lists are the concatenated texts. |
| `ChatRouter.SourceOf` | backend/routers/chat.py:36-40 | A source takes title, author and filename from the payload, each defaulting to "Unknown". |
| `ChatRouter.SourcesOf` | backend/routers/chat.py:34-42 | There is one source per hit, in hit order. |
| `ChatRouter.JoinTexts` | backend/routers/chat.py:45 | The join succeeds iff every hit's `text` (default `""`) is a string. |
| `ChatRouter.JoinTextsIsJoin` | backend/routers/chat.py:35-45 | When it succeeds, the context is the texts joined with `"\n\n"` in hit order. |
| `ChatRouter.JoinTextsFailsAt` | backend/routers/chat.py:45 | The first non-string text makes the join fail with the `TypeError` naming that item's index and type. |
| `ChatRouter.ChatWithDocuments` | backend/routers/chat.py:12-55 | Every failure is a 500 whose detail is "Chat error: " plus the error's text. This holds for each failing step: retrieval, the context join (a non-string hit text) and the answer model. No hits gives the fixed reply with no sources. Otherwise the answer model's reply comes back with the first min(3, n) sources. |
| `ChatRouter.NoHitsSkipsAnswerModel` | backend/routers/chat.py:24-29 | With no hits, the answer model is not consulted. |
| `ChatRouter.DocIdIgnored` | backend/routers/chat.py:10 | `doc_id` has no effect on the response. |
| `ChatRouter.AnsweredFromContext` | backend/routers/chat.py:32-52 | With hits and a successful answer, the reply is the model's answer for the joined context, with the first min(3, n) sources. |
| `ChatRouter.EmptyQuestionIs500` | backend/routers/chat.py:14 | The handler, called with an empty question, fails in `get_embedding` and answers a 500 with the non-empty message. |
| `ChatRouter.BlankQuestionIs500` | backend/routers/chat.py:14 | A whitespace-only question reaches the handler and fails cleaning in `get_embedding`. The answer is a 500 with the empty-after-cleaning message, before any search. |
| `Json.Property` | frontend/src/components/UploadForm.jsx:108 | Reading a property throws iff the value is `null`, with V8's TypeError text. For the keys the app reads (`answer`, `sources`, `chunks_uploaded`), an object's own key gives its value, and a missing key or a non-object gives `undefined`. |
| `Json.CountDisplayInjective` | frontend/src/components/UploadForm.jsx:108 | Different counts render as different text. |
| `Text.Strip` | backend/services/document_parser.py:83 | A stripped string has no whitespace at either end and is no longer than its input. |
| `Text.StripAbsorbsPadding` | backend/services/embeddings.py:37 | Whitespace added around a string does not change its strip. |
| `Text.StripIdempotent` | backend/services/document_parser.py:83 | Stripping twice is stripping once. |
| `Text.StripIsPaddedSlice` | backend/services/document_parser.py:83 | The strip of a string is a contiguous slice of it, with only whitespace cut off on either side. |
| `Text.Split` | backend/services/document_parser.py:75 | A split yields at least one piece, and the first piece is a prefix of the string. |
| `Text.SplitIsLeftmost` | backend/services/document_parser.py:75 | Python's leftmost rule. The first piece runs up to the first occurrence of the separator, and the other pieces split what follows it. With no occurrence there is a single piece, the whole string. |
| `Text.ThreeNewlinesSplit` | backend/services/document_parser.py:75 | Three newlines split on `"\n\n"` into an empty first paragraph and a second one holding the leftover newline. |
| `Text.StripEmptyIffAllSpace` | backend/routers/upload.py:51 | A string strips to empty iff it is all whitespace. |
| `Text.JoinSplit` | backend/services/document_parser.py:75 | Joining the pieces of a split with the same separator gives back the string. |
| `Text.SplitPiecesAvoidSeparator` | backend/services/document_parser.py:75 | No piece of a split contains the separator. |
| `Text.NatToStringRoundTrip` | frontend/src/components/UploadForm.jsx:29 | A number's decimal rendering reads back as that number. |
| `UploadForm.AddExtra` | frontend/src/components/UploadForm.jsx:83 | Appends exactly one blank row with the fresh id and keeps the others. |
| `UploadForm.RemoveExtra` | frontend/src/components/UploadForm.jsx:84 | A row remains iff it was present and its id differs. |
| `UploadForm.RemoveExtraAppend` | frontend/src/components/UploadForm.jsx:84 | Removal distributes over concatenation, so the remaining rows keep their order. |
| `UploadForm.UpdateExtra` | frontend/src/components/UploadForm.jsx:85 | Rows with the id get the patch; all others are unchanged, and ids and length are kept. |
| `UploadForm.RowEditsKeepIdsDistinct` | frontend/src/components/UploadForm.jsx:83-85 | Adding with a fresh id, removing and patching all keep row ids distinct. |
| `UploadForm.PutLookup` | frontend/src/components/UploadForm.jsx:40 | Assigning a property sets that key and leaves every other key's value alone. |
| `UploadForm.LastContribution` | frontend/src/components/UploadForm.jsx:39-41 | Finds the trimmed value of a contributing row with trimmed key `k` such that no later contributing row has that key. None is found only when no contributing row has that key. |
| `UploadForm.ApplyRowsLookup` | frontend/src/components/UploadForm.jsx:39-41 | After the row loop, a key holds the last contributing row's trimmed value, or what it held before. Rows keyed `__proto__` change nothing. |
| `UploadForm.MetadataLastRowWins` | frontend/src/components/UploadForm.jsx:36-41 | A non-empty title or author goes in untrimmed. An extra row contributes iff its trimmed key and value are both non-empty, and the last such row for a key overrides, `title` and `author` included. Keys are unique and `__proto__` never appears. |
| `UploadForm.MetadataField` | frontend/src/components/UploadForm.jsx:42 | The field is attached iff the object has a key. |
| `UploadForm.MetadataFieldOmittedIff` | frontend/src/components/UploadForm.jsx:36-42 | No field is sent iff title and author are empty and no row contributes a key other than `__proto__`. |
| `UploadForm.AddedRowChangesNothing` | frontend/src/components/UploadForm.jsx:39-41 | A newly added blank row does not change the metadata. |
| `UploadForm.FailureMessage` | frontend/src/components/UploadForm.jsx:29 | The rejection text starts "Upload failed (", directly followed by the status's decimal digits and ")". It ends there when the body is empty; otherwise ": " and the body follow. |
| `UploadForm.ClassifyResponse` | frontend/src/components/UploadForm.jsx:16-32 | The promise resolves iff the status is 2xx. A JSON content type gives the parsed body, or `{raw: body}` when parsing fails; any other type gives the text. Other statuses reject with the status message. |
| `UploadForm.FailureMessageInjective` | frontend/src/components/UploadForm.jsx:29 | The rejection text determines the status and the body. |
| `UploadForm.RejectionNeverEmpty` | frontend/src/components/UploadForm.jsx:118 | A rejection text is never empty, so the "Upload failed." fallback never shows. |
| `UploadForm.AfterSettled` | frontend/src/components/UploadForm.jsx:106-121 | After the await, submitting ends. The status is success iff the promise resolved with a non-null value; an error status always has text; progress is 100 or unchanged. |
| `UploadForm.StartUpload` | frontend/src/components/UploadForm.jsx:93-105 | Without a file only the error is set. With one, the handler resets progress, status and response, arms the abort handle, and sends the file with the assembled metadata field. |
| `UploadForm.StepKeepsConsistent` | frontend/src/components/UploadForm.jsx:73-130 | Every offered event keeps four facts, in both the as-written and the corrected form: submitting holds iff a request is in flight; a request in flight has an abort handle; progress stays within 0-100; row ids stay distinct. |
| `UploadForm.InitialConsistent` | frontend/src/components/UploadForm.jsx:59-73 | The initial form is consistent and cannot submit. |
| `UploadForm.AbortHandleStaysArmed` | frontend/src/components/UploadForm.jsx:6 | Once set, the abort handle is never cleared. |
| `UploadForm.NoSecondUpload` | frontend/src/components/UploadForm.jsx:73 | While a request is in flight the submit button is disabled. |
| `UploadForm.ResetRestoresBlankRow` | frontend/src/components/UploadForm.jsx:86-91 | Reset leaves one blank row, no file and empty metadata, and does not touch a running upload. |
| `UploadForm.SubmitWithoutFile` | frontend/src/components/UploadForm.jsx:95 | Submitting without a file sets "Please select a file first." and starts nothing; the page does not offer it. |
| `UploadForm.SuccessfulUpload` | frontend/src/components/UploadForm.jsx:106-116 | A 2xx JSON object with `chunks_uploaded` gives the success text with the count and progress 100. The answer is kept and passed to `onSuccess`. |
| `UploadForm.PlainTextSuccessSaysUndefined` | frontend/src/components/UploadForm.jsx:21-24 | A 2xx answer whose Content-Type is absent or does not contain `application/json` reports "Processed undefined text chunks". |
| `UploadForm.NullAnswerIsTypeError` | frontend/src/components/UploadForm.jsx:106-118 | A 2xx JSON `null` reaches the success code, whose property read throws; the TypeError text is shown and progress is unchanged. |
| `UploadForm.FailedUploadShowsStatus` | frontend/src/components/UploadForm.jsx:117-118 | A non-2xx answer shows the rejection text and ends submitting. |
| `UploadForm.CancelIsOverwritten` | frontend/src/components/UploadForm.jsx:124-130 | As written: cancelling a running upload ends with "Upload failed (0)", not "Upload canceled.". |
| `UploadForm.CorrectedCancelIsFinal` | frontend/src/components/UploadForm.jsx:124-130 | Corrected: cancelling shows "Upload canceled." and no response can arrive for the aborted request. |
| `MiniRouter.Start` | frontend/src/App.jsx:8 | The path state starts as the location's path. |
| `MiniRouter.Navigate` | frontend/src/App.jsx:16-21 | After navigating, the location is the target. |
| `MiniRouter.Traverse` | frontend/src/App.jsx:10-14 | A move by `delta` within the history changes the position by `delta` and reads the path back from the entry there, in sync. The entries never change. |
| `MiniRouter.NavigateToCurrentIsNoOp` | frontend/src/App.jsx:17 | Navigating to the current path changes nothing. |
| `MiniRouter.NavigatePushesOne` | frontend/src/App.jsx:17-20 | Navigating elsewhere pushes exactly one entry after the current one, drops forward entries, and sets the path. |
| `MiniRouter.NavigateIdempotent` | frontend/src/App.jsx:16-21 | Navigating twice to a path is navigating once. |
| `MiniRouter.NavigationKeepsInSync` | frontend/src/App.jsx:11-19 | After a navigation or a popstate, the path state equals the location's path. |
| `MiniRouter.BackUndoesNavigate` | frontend/src/App.jsx:11-20 | Back after a navigation returns to the previous entry and path, keeping the pushed entry as forward history. |
| `MiniRouter.PageFor` | frontend/src/App.jsx:29-31 | `/upload` gives the upload page and `/chat` the chat page; every other path gives the landing page. |
| `ChatWindow.InitialLogIsWelcome` | frontend/src/components/ChatWindow.jsx:16-24 | The log starts as the single welcome bot message, so suggestions show and nothing is loading. |
| `ChatWindow.SuggestionsOnlyAtStart` | frontend/src/components/ChatWindow.jsx:211 | Suggestions show iff the log has one entry; once it grows they never return. |
| `ChatWindow.LogIsAppendOnly` | frontend/src/components/ChatWindow.jsx:45-51 | No event alters or removes an entry; each adds at most one. |
| `ChatWindow.StartSend` | frontend/src/components/ChatWindow.jsx:53-67 | A blank input or a running request changes nothing. Otherwise the untrimmed input is logged and asked, the input cleared and loading set. |
| `ChatWindow.SendGuard` | frontend/src/components/ChatWindow.jsx:54-63 | Send is a no-op iff the input is blank or loading is on; an accepted send logs and asks exactly the typed text. |
| `ChatWindow.EnterSends` | frontend/src/components/ChatWindow.jsx:100-105 | Enter without Shift sends; any other key does nothing. |
| `ChatWindow.AnswerMessage` | frontend/src/components/ChatWindow.jsx:77-81 | Reading `answer` and `sources` throws iff the data is `null`; otherwise the result is a non-error bot message. Its content is `data.answer` and its sources are `data.sources`, each `undefined` when missing. |
| `ChatWindow.QuestionReply` | frontend/src/components/ChatWindow.jsx:74-94 | The reply is an error iff the response is not an ok, non-null JSON value. The apology appears iff the response is JSON but not ok; every other error is the connection text. An ok, non-null JSON reply is the answer message, with its answer and sources. |
| `ChatWindow.QuestionGetsOneReply` | frontend/src/components/ChatWindow.jsx:74-97 | A pending question gets exactly one bot message and loading ends. An ok JSON answer is shown with its sources; a non-JSON body gives the connection text even when ok. |
| `ChatWindow.SummaryReply` | frontend/src/components/ChatWindow.jsx:122-140 | The summary reply ignores `ok`. It fails, with the summary-failure text, iff there is no non-null JSON value. Otherwise it is the answer message for that value. |
| `ChatWindow.FinishRequest` | frontend/src/components/ChatWindow.jsx:74-97 | A pending request's reply adds one bot message, clears loading and retires that request; nothing else is answered. |
| `ChatWindow.NoteUpload` | frontend/src/components/ChatWindow.jsx:107-113 | An upload adds the note with its chunk count, closes the modal and sets the summary timer. A `null` response changes nothing. |
| `ChatWindow.FireTimer` | frontend/src/components/ChatWindow.jsx:113-125 | The timer logs the fixed summary request and sets loading. |
| `ChatWindow.UploadSuccessSequence` | frontend/src/components/ChatWindow.jsx:107-145 | An upload, its timer and the reply add, in order: the note with the count (with the modal closed), the fixed request, then one bot message. Loading ends. |
| `ChatWindow.UploadNoteShowsCount` | frontend/src/components/ChatWindow.jsx:110 | The note shows the count right after its opening words; notes read alike only when their counts render alike. |
| `ChatWindow.StepKeepsConsistent` | frontend/src/components/ChatWindow.jsx:63-142 | While loading, some request is outstanding. |

## Left out

- `extract_pdf_text`, `extract_docx_text` and `extract_txt_text` (backend/services/document_parser.py:8-23) are third-party readers. They are the `read` parameter.
- File access in `detect_file_type` is a `FileProbe`: whether the file opens, its bytes, and whether the file reads as UTF-8 text (an abstract flag; Python decodes a whole buffered block, not just the first 100 characters).
- Writing and deleting the temporary file (backend/routers/upload.py:44-46, 83-89) is left out. The generated name is a parameter.
- `add_to_qdrant` is the `store` parameter. backend/services/qdrant_utils.py is not part of this model.
- The OpenAI and Qdrant calls are parameters: `embed`, `search` and `answer`. So are `json.loads` and `JSON.parse`. Collection creation and the prompt text are left out.
- Embedding vectors are a type parameter; floating point is not modelled.
- JSON numbers are integers, because every number the app reads is a count.
- Whitespace is the six ASCII whitespace characters, for both Python `strip` and JavaScript `trim`. Lower-casing covers only A-Z.
- Embeddings.CleanInput: the `isinstance(text, str)` check is not modelled, because the input is typed as a string.
- UploadRouter.GetFileExtension: a missing filename and an empty one are both the empty string. A missing content type is the empty string, as the handler passes it.
- DocumentParser.Suffix: the final component is the text after the last `/`. Trailing-slash normalisation of `pathlib` is not modelled, because upload paths never end in a slash.
- The chunk filter's `isinstance(chunk, str)` test always holds for strings, so it is not modelled.
- Message ids (`Date.now() + Math.random()`), timestamps, `formatMessageContent` and the scroll, focus and resize effects are presentation, so they are left out. Rendering is left out too, including the failure of `formatMessageContent` on a non-string content, such as a missing `answer`.
- Timer delays are not modelled. The summary timer is an event. `onSuccess` is recorded in `notified`, without its one-second delay.
- The question text sent by the summary request is not recorded; the model logs only the fixed user message.
- Progress percentages arrive as an event carrying the rounded value. `humanFileSize` is floating point and left out.
- Drag-and-drop state, the file picker, `hideResponse`, and the "go to chat/home" links are rendering or page loads, so they are left out.
- MiniRouter.Traverse: a move past either end of the history leaves the app, so it is not modelled.
- MiniRouter.Navigate: the target becomes the location verbatim. The browser's URL resolution is left out: relative targets are not resolved, and a `?query` or `#hash` is not dropped from the path. The app only navigates to `/upload` and `/chat`.
- Json.Property: holds only for keys that are neither `length` nor inherited from `Object.prototype` (such as `constructor` or `toString`), which JavaScript defines on strings, arrays or every object. The app reads only `answer`, `sources` and `chunks_uploaded`.
- ChatRouter.EmptyQuestionIs500: FastAPI's form validation is not modelled. `question` is a required form field (backend/routers/chat.py:9), so an empty one is refused with a 422 before the handler runs. The lemma is about the handler body.
- Embeddings.GetEmbedding: the two `print` calls on an embedding failure (backend/services/embeddings.py:50-51) are logging, so they are left out.
- The upload modal in the chat page is only opened and closed here, by its button, its close control or an upload. Its content is the upload form.

## Findings

| source | as written | input that shows it | evidently intended | confidence | as-written member | corrected member |
|---|---|---|---|---|---|---|
| frontend/src/components/UploadForm.jsx:124-130 | `xhr.abort()` makes the request report DONE with status 0 before it returns. The awaiting submit handler then runs after `cancelUpload` and replaces "Upload canceled." with "Upload failed (0)". | Click Cancel while an upload is in flight. | The canceled status stays, and nothing from the aborted request changes the form. | high, not executed | `UploadForm.CancelIsOverwritten` | `UploadForm.CorrectedCancelIsFinal` |
| backend/routers/upload.py:53-81 | The 422 raised for "no valid chunks" is caught by the handler's own `except Exception`. The client receives a 500 with detail "Error processing file: 422: No valid text chunks could be created from the file". | Upload a `.txt` file containing only blank lines. | A 422 with detail "No valid text chunks could be created from the file". | high, not executed | `UploadRouter.NoChunksIs500` | `UploadRouter.UploadFileCorrected` |

=== FILE: chat_router.dfy ===
/** The `/chat` endpoint: embed the question, search, and either give the
    fixed no-results reply or build a context and a source list for the answer
    model. The embedding model, the vector store and the answer model are
    oracles. */
module ChatRouter {
  import opened Wrappers
  import opened Text
  import opened Json
  import opened Embeddings

  const NoResultsAnswer: string :=
    "I don't have any relevant information to answer your question. Please upload some documents first."

  /** How many hits the search asks for. */
  const SearchLimit: int := 5

  /** How many sources the reply carries at most. */
  const MaxSources: nat := 3

  const ChatErrorPrefix: string := "Chat error: "

  /** What the reply says about one hit. */
  datatype Source = Source(title: Json, author: Json, filename: Json)

  /** `payload.get(key, default)`. */
  function Get(payload: map<string, Json>, key: string, default: Json): (v: Json)
    ensures key in payload ==> v == payload[key]
    ensures key !in payload ==> v == default
  {
    if key in payload then payload[key] else default
  }

  /** A hit's source record, each field defaulting to `"Unknown"`. */
  function SourceOf(hit: Hit): (s: Source)
    ensures "title" !in hit.payload ==> s.title == JString("Unknown")
    ensures "author" !in hit.payload ==> s.author == JString("Unknown")
    ensures "filename" !in hit.payload ==> s.filename == JString("Unknown")
    ensures "title" in hit.payload ==> s.title == hit.payload["title"]
    ensures "author" in hit.payload ==> s.author == hit.payload["author"]
    ensures "filename" in hit.payload ==> s.filename == hit.payload["filename"]
  {
    var unknown := JString("Unknown");
    Source(Get(hit.payload, "title", unknown), Get(hit.payload, "author", unknown),
           Get(hit.payload, "filename", unknown))
  }

  /** One source record per hit, in hit order. */
  function SourcesOf(hits: seq<Hit>): (sources: seq<Source>)
    ensures |sources| == |hits|
    ensures forall i :: 0 <= i < |hits| ==> sources[i] == SourceOf(hits[i])
  {
    seq(|hits|, i requires 0 <= i < |hits| => SourceOf(hits[i]))
  }

  /** A hit's context text: its `"text"` entry, or the empty string. */
  function ContextTextOf(hit: Hit): Json {
    Get(hit.payload, "text", JString(""))
  }

  /** Python's name for the type of a parsed JSON value. */
  function PyTypeName(j: Json): string {
    match j
    case JNull => "NoneType"
    case JBool(_) => "bool"
    case JNumber(_) => "int"
    case JString(_) => "str"
    case JArray(_) => "list"
    case JObject(_) => "dict"
  }

  /** `str()` of the `TypeError` `str.join` raises at a non-string item. */
  function JoinTypeError(index: nat, item: Json): string {
    "sequence item " + NatToString(index) + ": expected str instance, " + PyTypeName(item) + " found"
  }

  /** `"\n\n".join(...)` over the hits' context texts; `index` is the first
      hit's position in the whole list, which the error message reports. */
  function JoinTexts(hits: seq<Hit>, index: nat): (r: Result<string, string>)
    ensures r.Success? <==> forall i :: 0 <= i < |hits| ==> ContextTextOf(hits[i]).JString?
    decreases |hits|
  {
    if hits == [] then Success("")
    else
      var t := ContextTextOf(hits[0]);
      if !t.JString? then Failure(JoinTypeError(index, t))
      else if |hits| == 1 then Success(t.s)
      else
        match JoinTexts(hits[1..], index + 1)
        case Failure(e) => Failure(e)
        case Success(rest) =>
          assert forall i :: 1 <= i < |hits| ==> hits[i] == hits[1..][i - 1];
          Success(t.s + Sep + rest)
  }

  /** The hits' context texts as strings, when all of them are strings. */
  function ContextStrings(hits: seq<Hit>): (texts: seq<string>)
    requires forall i :: 0 <= i < |hits| ==> ContextTextOf(hits[i]).JString?
    ensures |texts| == |hits|
  {
    seq(|hits|, i requires 0 <= i < |hits| => ContextTextOf(hits[i]).s)
  }

  /** The context is the hits' texts joined by the paragraph separator, in hit
      order. */
  lemma {:induction false} JoinTextsIsJoin(hits: seq<Hit>, index: nat)
    requires forall i :: 0 <= i < |hits| ==> ContextTextOf(hits[i]).JString?
    ensures JoinTexts(hits, index) == Success(Join(ContextStrings(hits), Sep))
    decreases |hits|
  {
    if |hits| > 1 {
      JoinTextsIsJoin(hits[1..], index + 1);
      assert ContextStrings(hits)[1..] == ContextStrings(hits[1..]);
    }
  }

  /** The endpoint's answer: the reply, or an HTTP error. */
  datatype ChatResponse = Answered(answer: string, sources: seq<Source>) | HttpError(status: int, detail: string)

  function ChatFailure(e: string): ChatResponse {
    HttpError(500, ChatErrorPrefix + e)
  }

  /** The oracles the endpoint consults: the embedding model, the vector
      store's search (query vector and limit), and the answer model
      (question and context). */
  datatype Services<!V> = Services(
    embed: string -> Result<V, string>,
    search: (V, int) -> Result<seq<Hit>, string>,
    answer: (string, string) -> Result<string, string>)

  /** The hits the search returns for a question, or the error on the way. */
  function Retrieve<V>(question: string, services: Services<V>): Result<seq<Hit>, string> {
    match GetEmbedding(question, services.embed)
    case Failure(e) => Failure(e)
    case Success(v) => services.search(v, SearchLimit)
  }

  /** `chat_with_documents`. The optional `doc_id` is accepted and unused. */
  function ChatWithDocuments<V>(question: string, docId: Option<string>, services: Services<V>): (r: ChatResponse)
    ensures r.HttpError? ==> r.status == 500 && ChatErrorPrefix <= r.detail
    ensures r.Answered? ==> |r.sources| <= MaxSources
    ensures Retrieve(question, services).Failure? ==> r == ChatFailure(Retrieve(question, services).error)
    ensures Retrieve(question, services) == Success([]) ==> r == Answered(NoResultsAnswer, [])
    ensures var hits := Retrieve(question, services);
            hits.Success? && hits.value != [] && JoinTexts(hits.value, 0).Failure? ==>
              r == ChatFailure(JoinTexts(hits.value, 0).error)
    ensures var hits := Retrieve(question, services);
            hits.Success? && hits.value != [] && JoinTexts(hits.value, 0).Success? ==>
              var reply := services.answer(question, JoinTexts(hits.value, 0).value);
              (reply.Failure? ==> r == ChatFailure(reply.error)) &&
              (reply.Success? ==> r.Answered? && r.answer == reply.value &&
                                  r.sources <= SourcesOf(hits.value) &&
                                  |r.sources| == if |hits.value| <= MaxSources then |hits.value| else MaxSources)
  {
    match Retrieve(question, services)
    case Failure(e) => ChatFailure(e)
    case Success(hits) =>
      if hits == [] then Answered(NoResultsAnswer, [])
      else
        var sources := SourcesOf(hits);
        match JoinTexts(hits, 0)
        case Failure(e) => ChatFailure(e)
        case Success(context) =>
          match services.answer(question, context)
          case Failure(e) => ChatFailure(e)
          case Success(a) =>
            Answered(a, if |sources| <= MaxSources then sources else sources[..MaxSources])
  }

  /** With no hits the reply is fixed and the answer model is never asked:
      any two answer models give the same response. */
  lemma NoHitsSkipsAnswerModel<V>(question: string, docId: Option<string>, s1: Services<V>,
                                  answer2: (string, string) -> Result<string, string>)
    requires Retrieve(question, s1) == Success([])
    ensures ChatWithDocuments(question, docId, s1) ==
            ChatWithDocuments(question, docId, Services(s1.embed, s1.search, answer2))
    ensures ChatWithDocuments(question, docId, s1) == Answered(NoResultsAnswer, [])
  {
  }

  /** The `doc_id` field has no effect on the response. */
  lemma DocIdIgnored<V>(question: string, d1: Option<string>, d2: Option<string>, services: Services<V>)
    ensures ChatWithDocuments(question, d1, services) == ChatWithDocuments(question, d2, services)
  {
  }

  /** With hits, the answer model is asked the question with the hits' texts
      joined by the separator in hit order, and the reply carries its answer
      and the first min(3, n) source records. */
  lemma AnsweredFromContext<V>(question: string, docId: Option<string>, services: Services<V>)
    requires Retrieve(question, services).Success?
    requires var hits := Retrieve(question, services).value;
             hits != [] && forall i :: 0 <= i < |hits| ==> ContextTextOf(hits[i]).JString?
    requires var hits := Retrieve(question, services).value;
             services.answer(question, Join(ContextStrings(hits), Sep)).Success?
    ensures var hits := Retrieve(question, services).value;
            var n := if |hits| <= MaxSources then |hits| else MaxSources;
            ChatWithDocuments(question, docId, services) ==
              Answered(services.answer(question, Join(ContextStrings(hits), Sep)).value, SourcesOf(hits)[..n])
  {
    var hits := Retrieve(question, services).value;
    JoinTextsIsJoin(hits, 0);
    assert SourcesOf(hits)[..|hits|] == SourcesOf(hits);
  }

  /** The handler, called with an empty question, fails embedding, which
      surfaces as a chat error. */
  lemma EmptyQuestionIs500<V>(docId: Option<string>, services: Services<V>)
    ensures ChatWithDocuments("", docId, services) == ChatFailure(NotNonEmptyMessage)
  {
  }

  /** A question of whitespace only fails embedding after cleaning, which
      surfaces as a chat error; neither the search nor the answer model is
      asked. */
  lemma BlankQuestionIs500<V>(question: string, docId: Option<string>, services: Services<V>)
    requires question != [] && AllSpace(question)
    ensures ChatWithDocuments(question, docId, services) == ChatFailure(EmptyAfterCleaningMessage)
  {
  }

  /** A hit whose text is not a string fails the join; the error names the
      first such hit, counted from where the join started. */
  lemma {:induction false} JoinTextsFailsAt(hits: seq<Hit>, index: nat, k: nat)
    requires k < |hits| && !ContextTextOf(hits[k]).JString?
    requires forall i :: 0 <= i < k ==> ContextTextOf(hits[i]).JString?
    ensures JoinTexts(hits, index) == Failure(JoinTypeError(index + k, ContextTextOf(hits[k])))
    decreases k
  {
    if k > 0 {
      assert hits[1..][k - 1] == hits[k];
      assert forall i :: 0 <= i < k - 1 ==> hits[1..][i] == hits[i + 1];
      JoinTextsFailsAt(hits[1..], index + 1, k - 1);
    }
  }
}

=== FILE: chat_window.dfy ===
/** The chat page's message log: the welcome message, sending a question and
    adding the reply, and the messages added after an upload. The requests
    themselves are outside the model; how each one ended is an event. */
module ChatWindow {
  import opened Wrappers
  import opened Text
  import opened Json

  datatype Sender = Bot | User | SystemNote

  /** The page's fixed texts. */
  datatype Canned = WelcomeText | ApologyText | ConnectionText | SummaryRequestText | SummaryFailureText

  function CannedText(c: Canned): string {
    match c
    case WelcomeText => "Hi! I'm Sonia AI, your intelligent document assistant. Upload documents and I'll help you find answers, insights, and summaries from your content."
    case ApologyText => "I apologize, but I encountered an error while processing your request. Please try again."
    case ConnectionText => "I'm having trouble connecting right now. Please check your connection and try again."
    case SummaryRequestText => "Please provide a comprehensive summary of the uploaded document."
    case SummaryFailureText => "I couldn't generate a summary right now. Feel free to ask me specific questions about your document!"
  }

  /** What a log entry shows: one of the fixed texts, a JavaScript value
      (a reply's `answer` may be missing), or the note after an upload with
      the count it reports. */
  datatype Content = Fixed(text: Canned) | Shown(value: JsValue) | UploadNote(chunks: JsValue)

  /** The entry's content as a string, before formatting. */
  function ContentText(c: Content): string {
    match c
    case Fixed(t) => CannedText(t)
    case Shown(v) => Display(v)
    case UploadNote(chunks) => UploadNoteText(chunks)
  }

  /** One log entry; entries of the page's own making have no sources. */
  datatype Message = Message(sender: Sender, content: Content, sources: JsValue, isError: bool, isWelcome: bool)

  function Str(s: string): Content {
    Shown(Value(JString(s)))
  }

  function UserMessage(s: string): Message {
    Message(User, Str(s), Undefined, false, false)
  }

  function ErrorMessage(c: Canned): Message {
    Message(Bot, Fixed(c), Undefined, true, false)
  }

  const Welcome := Message(Bot, Fixed(WelcomeText), Undefined, false, true)

  /** The text of the system note after an upload. */
  function UploadNoteText(chunks: JsValue): string {
    UploadNoteLead + Display(chunks) + UploadNoteTail
  }

  const UploadNoteLead := "**Document uploaded successfully!** Processed "
  const UploadNoteTail := " text chunks and stored in your knowledge base. I can now answer questions about this document."

  /** A middle part between a fixed lead and tail can be read back. */
  lemma Framed(lead: string, a: string, b: string, tail: string)
    ensures OccursAt(lead + a + tail, a, |lead|)
    ensures lead + a + tail == lead + b + tail ==> a == b
  {
    assert (lead + a + tail)[|lead|..|lead| + |a|] == a;
    if lead + a + tail == lead + b + tail {
      assert (lead + b + tail)[|lead|..|lead| + |b|] == b;
    }
  }

  /** The note names the reported count right after its opening words, and
      two notes read alike only when their counts render alike. */
  lemma UploadNoteShowsCount(chunks: JsValue, other: JsValue)
    ensures OccursAt(ContentText(UploadNote(chunks)), Display(chunks), |UploadNoteLead|)
    ensures ContentText(UploadNote(chunks)) == ContentText(UploadNote(other)) ==> Display(chunks) == Display(other)
  {
    Framed(UploadNoteLead, Display(chunks), Display(other), UploadNoteTail);
  }

  /** A request the page is waiting on: a question, the summary timer after an
      upload, or the summary request it sends. */
  datatype Pending = Ask | SummaryTimer | Summary

  /** How a chat request ended: the network failed, or a response arrived
      with its `ok` flag and the result of `response.json()` (`None` when the
      body is not JSON). */
  datatype Reply = NetworkFailure | Received(ok: bool, body: Option<Json>)

  datatype Chat = Chat(log: seq<Message>, input: string, loading: bool, modalOpen: bool, pending: seq<Pending>, asked: seq<string>)

  const InitialChat := Chat([Welcome], "", false, false, [], [])

  /** The suggested questions are shown while the log holds one message. */
  predicate ShowsSuggestions(c: Chat) {
    |c.log| == 1
  }

  /** The bot message for `data.answer` and `data.sources`, or the error the
      property read raises. */
  function AnswerMessage(data: Json): (r: Result<Message, string>)
    ensures r.Failure? <==> data == JNull
    ensures r.Success? ==> r.value.sender == Bot && !r.value.isError && !r.value.isWelcome
    ensures data.JObject? && "answer" in data.fields ==> r.Success? && r.value.content == Shown(Value(data.fields["answer"]))
    ensures r.Success? ==> r.value.content == Shown(Property(data, "answer").value) &&
                           r.value.sources == Property(data, "sources").value
    ensures data.JObject? && "sources" in data.fields ==> r.Success? && r.value.sources == Value(data.fields["sources"])
    ensures data != JNull && !(data.JObject? && "sources" in data.fields) ==> r.Success? && r.value.sources == Undefined
  {
    match Property(data, "answer")
    case Failure(e) => Failure(e)
    case Success(answer) =>
      match Property(data, "sources")
      case Failure(e) => Failure(e)
      case Success(sources) => Success(Message(Bot, Shown(answer), sources, false, false))
  }

  /** The reply to a question: `json()` runs before `ok` is looked at, and
      anything thrown lands in the connection-trouble message. */
  function QuestionReply(reply: Reply): (m: Message)
    ensures m.sender == Bot && !m.isWelcome
    ensures m.isError <==> !(reply.Received? && reply.ok && reply.body.Some? && reply.body.value != JNull)
    ensures m.isError ==> m.content == Fixed(ApologyText) || m.content == Fixed(ConnectionText)
    ensures m.content == Fixed(ApologyText) && m.isError <==> reply.Received? && !reply.ok && reply.body.Some?
    ensures reply.Received? && reply.ok && reply.body.Some? && reply.body.value != JNull ==>
              m == AnswerMessage(reply.body.value).value
  {
    match reply
    case NetworkFailure => ErrorMessage(ConnectionText)
    case Received(ok, body) =>
      match body
      case None => ErrorMessage(ConnectionText)
      case Some(data) =>
        if !ok then ErrorMessage(ApologyText)
        else match AnswerMessage(data)
             case Success(m) => m
             case Failure(_) => ErrorMessage(ConnectionText)
  }

  /** The reply to the summary request: `ok` is never looked at. */
  function SummaryReply(reply: Reply): (m: Message)
    ensures m.sender == Bot && !m.isWelcome
    ensures m.isError <==> !(reply.Received? && reply.body.Some? && reply.body.value != JNull)
    ensures m.isError ==> m.content == Fixed(SummaryFailureText)
    ensures reply.Received? && reply.body.Some? && reply.body.value != JNull ==>
              m == AnswerMessage(reply.body.value).value
  {
    match reply
    case NetworkFailure => ErrorMessage(SummaryFailureText)
    case Received(_, body) =>
      match body
      case None => ErrorMessage(SummaryFailureText)
      case Some(data) =>
        match AnswerMessage(data)
        case Success(m) => m
        case Failure(_) => ErrorMessage(SummaryFailureText)
  }

  function Remove(p: seq<Pending>, k: nat): (r: seq<Pending>)
    requires k < |p|
    ensures |r| == |p| - 1
  {
    p[..k] + p[k + 1..]
  }

  /** The page's events. `ReplyArrives(k, …)` ends the `k`-th pending request;
      `TimerFires(k)` is the `k`-th pending summary timer going off.
      `CloseModal` is the modal's close button or a click on its backdrop. */
  datatype Event =
    | Type(text: string)
    | Send
    | KeyPress(key: string, shift: bool)
    | ReplyArrives(k: nat, reply: Reply)
    | OpenModal
    | CloseModal
    | UploadSuccess(response: Json)
    | TimerFires(k: nat)

  /** `handleSendMessage` up to its `await`. */
  function StartSend(c: Chat): (d: Chat)
    ensures Strip(c.input) == [] || c.loading ==> d == c
    ensures Strip(c.input) != [] && !c.loading ==>
              d.log == c.log + [UserMessage(c.input)] && d.input == [] && d.loading &&
              d.pending == c.pending + [Ask] && d.asked == c.asked + [c.input] && d.modalOpen == c.modalOpen
  {
    if Strip(c.input) == [] || c.loading then c
    else c.(log := c.log + [UserMessage(c.input)], input := "", loading := true,
            pending := c.pending + [Ask], asked := c.asked + [c.input])
  }

  /** The continuation of the `k`-th pending request: one bot message, and
      loading ends. A timer that has not fired has no reply. */
  function FinishRequest(c: Chat, k: nat, reply: Reply): (d: Chat)
    ensures k < |c.pending| && c.pending[k] != SummaryTimer ==>
              d.log == c.log + [if c.pending[k] == Ask then QuestionReply(reply) else SummaryReply(reply)] &&
              !d.loading && d.pending == Remove(c.pending, k) && d.input == c.input
    ensures !(k < |c.pending| && c.pending[k] != SummaryTimer) ==> d == c
  {
    if k < |c.pending| && c.pending[k] != SummaryTimer then
      var m := if c.pending[k] == Ask then QuestionReply(reply) else SummaryReply(reply);
      c.(log := c.log + [m], loading := false, pending := Remove(c.pending, k))
    else c
  }

  /** `response.chunks_uploaded` of a response that is not `null`. */
  function ChunkCount(response: Json): (v: JsValue)
    requires response != JNull
    ensures Property(response, "chunks_uploaded") == Success(v)
  {
    Property(response, "chunks_uploaded").value
  }

  /** `handleUploadSuccess`: the system note, the modal closed, and the
      summary timer set. Reading the count of a `null` response throws before
      anything changes. */
  function NoteUpload(c: Chat, response: Json): (d: Chat)
    ensures response == JNull ==> d == c
    ensures response != JNull ==>
              d.log == c.log + [Message(SystemNote, UploadNote(ChunkCount(response)), Undefined, false, false)] &&
              !d.modalOpen && d.pending == c.pending + [SummaryTimer] && d.loading == c.loading
  {
    match Property(response, "chunks_uploaded")
    case Failure(_) => c
    case Success(chunks) =>
      c.(log := c.log + [Message(SystemNote, UploadNote(chunks), Undefined, false, false)],
         modalOpen := false, pending := c.pending + [SummaryTimer])
  }

  /** The summary timer going off: the fixed request is logged and sent. */
  function FireTimer(c: Chat, k: nat): (d: Chat)
    ensures k < |c.pending| && c.pending[k] == SummaryTimer ==>
              d.log == c.log + [Message(User, Fixed(SummaryRequestText), Undefined, false, false)] && d.loading &&
              d.pending == c.pending[k := Summary]
    ensures !(k < |c.pending| && c.pending[k] == SummaryTimer) ==> d == c
  {
    if k < |c.pending| && c.pending[k] == SummaryTimer then
      c.(log := c.log + [Message(User, Fixed(SummaryRequestText), Undefined, false, false)], loading := true, pending := c.pending[k := Summary])
    else c
  }

  function Step(c: Chat, e: Event): Chat {
    match e
    case Type(text) => c.(input := text)
    case Send => StartSend(c)
    case KeyPress(key, shift) => if key == "Enter" && !shift then StartSend(c) else c
    case ReplyArrives(k, reply) => FinishRequest(c, k, reply)
    case OpenModal => c.(modalOpen := true)
    case CloseModal => c.(modalOpen := false)
    case UploadSuccess(response) => NoteUpload(c, response)
    case TimerFires(k) => FireTimer(c, k)
  }

  // ---------------------------------------------------------------------------
  // Properties of the log
  // ---------------------------------------------------------------------------

  /** The page opens with the welcome message alone, so suggestions show. */
  lemma InitialLogIsWelcome()
    ensures InitialChat.log == [Welcome] && Welcome.isWelcome && Welcome.sender == Bot
    ensures ShowsSuggestions(InitialChat) && !InitialChat.loading
  {
  }

  /** `addMessage` only appends: no event alters or removes an entry. */
  lemma LogIsAppendOnly(c: Chat, e: Event)
    ensures |Step(c, e).log| >= |c.log| && Step(c, e).log[..|c.log|] == c.log
    ensures |Step(c, e).log| <= |c.log| + 1
  {
  }

  /** Once anything is added the suggestions are gone for good. */
  lemma SuggestionsOnlyAtStart(c: Chat, e: Event)
    requires |c.log| >= 1
    ensures ShowsSuggestions(Step(c, e)) ==> ShowsSuggestions(c) && Step(c, e).log == c.log
  {
    LogIsAppendOnly(c, e);
  }

  /** Enter without Shift sends; any other key, or Shift+Enter, changes
      nothing. */
  lemma EnterSends(c: Chat, key: string, shift: bool)
    ensures Step(c, KeyPress(key, shift)) == if key == "Enter" && !shift then Step(c, Send) else c
  {
  }

  /** A blank input or a running request makes Send a no-op; otherwise the
      typed text, untrimmed, is logged and asked, and the input cleared. */
  lemma SendGuard(c: Chat)
    ensures Step(c, Send) == c <==> Strip(c.input) == [] || c.loading
    ensures Step(c, Send) != c ==> Step(c, Send).log[|c.log|].content == Str(c.input) &&
                                   Step(c, Send).asked[|c.asked|] == c.input
  {
  }

  /** The reply to a question is one bot message: the answer and sources
      when the response is ok and JSON, the apology when it is JSON but not
      ok, the connection text otherwise; loading ends either way. */
  lemma QuestionGetsOneReply(c: Chat, k: nat, reply: Reply)
    requires k < |c.pending| && c.pending[k] == Ask
    ensures var d := Step(c, ReplyArrives(k, reply));
            d.log == c.log + [QuestionReply(reply)] && !d.loading && |d.pending| == |c.pending| - 1
    ensures forall fields: map<string, Json> :: "answer" in fields ==>
              QuestionReply(Received(true, Some(JObject(fields)))).content == Shown(Value(fields["answer"]))
    ensures forall fields: map<string, Json> :: "sources" in fields ==>
              QuestionReply(Received(true, Some(JObject(fields)))).sources == Value(fields["sources"])
    ensures forall ok :: QuestionReply(Received(ok, None)) == ErrorMessage(ConnectionText)
    ensures QuestionReply(Received(false, Some(JNull))) == ErrorMessage(ApologyText)
  {
  }

  /** After an upload: a system note with the chunk count and the modal
      closed; when the timer fires, the fixed summary request; then exactly
      one bot message, the answer or the summary-failure text. */
  lemma UploadSuccessSequence(c: Chat, fields: map<string, Json>, reply: Reply)
    requires "chunks_uploaded" in fields
    ensures var c1 := Step(c, UploadSuccess(JObject(fields)));
            var k := |c.pending|;
            var c2 := Step(c1, TimerFires(k));
            var c3 := Step(c2, ReplyArrives(k, reply));
            c1.log == c.log + [Message(SystemNote, UploadNote(Value(fields["chunks_uploaded"])), Undefined, false, false)] &&
            !c1.modalOpen &&
            c2.log == c1.log + [Message(User, Fixed(SummaryRequestText), Undefined, false, false)] && c2.loading &&
            c3.log == c2.log + [SummaryReply(reply)] && !c3.loading && c3.pending == c.pending
  {
    var c1 := Step(c, UploadSuccess(JObject(fields)));
    var k := |c.pending|;
    var c2 := Step(c1, TimerFires(k));
    assert c2.pending == c.pending + [Summary];
    assert Remove(c2.pending, k) == c.pending;
  }

  /** While loading, some request is outstanding. */
  predicate Consistent(c: Chat) {
    c.loading ==> exists k :: 0 <= k < |c.pending| && c.pending[k] != SummaryTimer
  }

  lemma {:induction false} StepKeepsConsistent(c: Chat, e: Event)
    requires Consistent(c)
    ensures Consistent(Step(c, e))
  {
    var d := Step(c, e);
    match e
    case Send =>
      if d != c {
        assert d.pending[|c.pending|] == Ask;
      }
    case KeyPress(_, _) =>
      if d != c {
        assert d.pending[|c.pending|] == Ask;
      }
    case TimerFires(k) =>
      if k < |c.pending| && c.pending[k] == SummaryTimer {
        assert d.pending[k] == Summary;
      }
    case UploadSuccess(_) =>
      if d.loading {
        var k :| 0 <= k < |c.pending| && c.pending[k] != SummaryTimer;
        assert d.pending[k] == c.pending[k];
      }
    case _ =>
  }
}

=== FILE: document_parser.dfy ===
/** The back end's document parser: paragraph chunking, file-type detection
    from magic bytes, and text extraction dispatched on the file extension.
    The PDF, DOCX and plain-text readers are libraries and appear here only as
    an oracle handed to `ExtractText`. */
module DocumentParser {
  import opened Wrappers
  import opened Text

  // ---------------------------------------------------------------------------
  // Chunking
  // ---------------------------------------------------------------------------

  /** The cap `chunk_text` uses when none is given. It counts characters,
      despite the parameter being called `max_tokens`. */
  const DefaultMaxTokens: int := 500

  /** The paragraphs of a text: its pieces between occurrences of the separator. */
  function Paragraphs(text: string): (paras: seq<string>)
    ensures |paras| >= 1
  {
    Split(text, Sep)
  }

  /** What the accumulator `current` holds once the paragraphs of `group` have
      been added to it: each paragraph followed by the separator. */
  function Render(group: seq<string>): string {
    if |group| == 0 then [] else Render(group[..|group| - 1]) + group[|group| - 1] + Sep
  }

  function Flatten<T>(groups: seq<seq<T>>): seq<T> {
    if |groups| == 0 then [] else Flatten(groups[..|groups| - 1]) + groups[|groups| - 1]
  }

  /** The grouping the chunker's loop builds, one paragraph at a time: a
      paragraph joins the open group when the open group's text plus the
      paragraph fits in the cap, and otherwise closes it and opens a new group.
      The last group is the one still open when the paragraphs run out. */
  function Pack(paras: seq<string>, maxTokens: int): (groups: seq<seq<string>>)
    ensures |groups| >= 1
    decreases |paras|
  {
    if |paras| == 0 then [[]]
    else
      var prev := Pack(paras[..|paras| - 1], maxTokens);
      var para := paras[|paras| - 1];
      var open := prev[|prev| - 1];
      if |Render(open)| + |para| <= maxTokens then prev[..|prev| - 1] + [open + [para]]
      else prev + [[para]]
  }

  /** The stripped texts of every group but the last. */
  function ClosedChunks(groups: seq<seq<string>>): seq<string>
    requires |groups| >= 1
  {
    seq(|groups| - 1, k requires 0 <= k < |groups| - 1 => Strip(Render(groups[k])))
  }

  /** The chunks of a grouping: every closed group, and the open one when its
      text is non-empty (the final `if current:` flush), each stripped. */
  function ChunksOf(groups: seq<seq<string>>): seq<string>
    requires |groups| >= 1
  {
    var last := Render(groups[|groups| - 1]);
    if last != [] then ClosedChunks(groups) + [Strip(last)] else ClosedChunks(groups)
  }

  /** The chunks `chunk_text` returns for a list of paragraphs. */
  function Chunks(paras: seq<string>, maxTokens: int): seq<string> {
    ChunksOf(Pack(paras, maxTokens))
  }

  /** The text of the group still open: the chunker's `current`. */
  function OpenText(groups: seq<seq<string>>): string
    requires |groups| >= 1
  {
    Render(groups[|groups| - 1])
  }

  lemma ClosedChunksReplaceOpen(groups: seq<seq<string>>, g: seq<string>)
    requires |groups| >= 1
    ensures ClosedChunks(groups[..|groups| - 1] + [g]) == ClosedChunks(groups)
  {
    var next := groups[..|groups| - 1] + [g];
    assert forall k :: 0 <= k < |groups| - 1 ==> next[k] == groups[k];
  }

  lemma ClosedChunksCloseOpen(groups: seq<seq<string>>, g: seq<string>)
    requires |groups| >= 1
    ensures ClosedChunks(groups + [g]) == ClosedChunks(groups) + [Strip(OpenText(groups))]
  {
    var next := groups + [g];
    var closed := ClosedChunks(groups);
    var lhs := ClosedChunks(next);
    assert forall k :: 0 <= k < |groups| ==> next[k] == groups[k];
    assert forall k :: 0 <= k < |closed| ==> lhs[k] == closed[k];
    assert lhs[|closed|] == Strip(OpenText(groups));
    SnocPointwise(lhs, closed, Strip(OpenText(groups)));
  }

  /** A sequence that agrees with `s` and then ends in `x` is `s + [x]`. */
  lemma SnocPointwise<T>(t: seq<T>, s: seq<T>, x: T)
    requires |t| == |s| + 1 && t[|s|] == x
    requires forall k :: 0 <= k < |s| ==> t[k] == s[k]
    ensures t == s + [x]
  {
  }

  lemma RenderAppend(group: seq<string>, para: string)
    ensures Render(group + [para]) == Render(group) + para + Sep
  {
    assert (group + [para])[..|group|] == group;
  }

  /** The grouping after one more paragraph, as the loop body computes it. */
  lemma PackUnfold(paras: seq<string>, maxTokens: int, i: nat)
    requires i < |paras|
    ensures var prev := Pack(paras[..i], maxTokens);
            Pack(paras[..i + 1], maxTokens) ==
              if |OpenText(prev)| + |paras[i]| <= maxTokens then prev[..|prev| - 1] + [prev[|prev| - 1] + [paras[i]]]
              else prev + [[paras[i]]]
  {
    assert paras[..i + 1][..i] == paras[..i];
  }

  /** A turn of the chunker's loop whose paragraph fits: the open group grows. */
  lemma PackStepFits(paras: seq<string>, maxTokens: int, i: nat)
    requires i < |paras|
    requires |OpenText(Pack(paras[..i], maxTokens))| + |paras[i]| <= maxTokens
    ensures ClosedChunks(Pack(paras[..i + 1], maxTokens)) == ClosedChunks(Pack(paras[..i], maxTokens))
    ensures OpenText(Pack(paras[..i + 1], maxTokens)) == OpenText(Pack(paras[..i], maxTokens)) + paras[i] + Sep
  {
    var prev := Pack(paras[..i], maxTokens);
    PackUnfold(paras, maxTokens, i);
    ClosedChunksReplaceOpen(prev, prev[|prev| - 1] + [paras[i]]);
    RenderAppend(prev[|prev| - 1], paras[i]);
  }

  /** A turn of the chunker's loop whose paragraph does not fit: the open group
      is closed and the paragraph opens the next one. */
  lemma PackStepCloses(paras: seq<string>, maxTokens: int, i: nat)
    requires i < |paras|
    requires |OpenText(Pack(paras[..i], maxTokens))| + |paras[i]| > maxTokens
    ensures ClosedChunks(Pack(paras[..i + 1], maxTokens)) ==
            ClosedChunks(Pack(paras[..i], maxTokens)) + [Strip(OpenText(Pack(paras[..i], maxTokens)))]
    ensures OpenText(Pack(paras[..i + 1], maxTokens)) == paras[i] + Sep
  {
    var prev := Pack(paras[..i], maxTokens);
    var next := Pack(paras[..i + 1], maxTokens);
    PackUnfold(paras, maxTokens, i);
    assert next == prev + [[paras[i]]];
    ClosedChunksCloseOpen(prev, [paras[i]]);
    RenderSingle(paras[i]);
  }

  lemma RenderSingle(p: string)
    ensures Render([p]) == p + Sep
  {
    RenderAppend([], p);
    assert [] + [p] == [p];
  }

  /** `chunk_text`: split the text into paragraphs and pack them greedily. */
  method ChunkText(text: string, maxTokens: int) returns (chunks: seq<string>)
    ensures chunks == Chunks(Paragraphs(text), maxTokens)
    ensures |chunks| >= 1
    ensures forall k :: 0 <= k < |chunks| ==> NoOuterSpace(chunks[k])
    ensures forall groups :: GreedyPacking(Paragraphs(text), maxTokens, groups) ==> chunks == ChunksOf(groups)
  {
    var paragraphs := Split(text, Sep);
    chunks := [];
    var current := "";
    var i := 0;
    while i < |paragraphs|
      invariant 0 <= i <= |paragraphs|
      invariant chunks == ClosedChunks(Pack(paragraphs[..i], maxTokens))
      invariant current == OpenText(Pack(paragraphs[..i], maxTokens))
      invariant i > 0 ==> current != []
    {
      var para := paragraphs[i];
      if |current| + |para| <= maxTokens {
        PackStepFits(paragraphs, maxTokens, i);
        current := current + para + Sep;
      } else {
        PackStepCloses(paragraphs, maxTokens, i);
        chunks := chunks + [Strip(current)];
        current := para + Sep;
      }
      i := i + 1;
    }
    assert paragraphs[..i] == paragraphs;
    if current != [] {
      chunks := chunks + [Strip(current)];
    }
    forall groups | GreedyPacking(Paragraphs(text), maxTokens, groups)
      ensures chunks == ChunksOf(groups)
    {
      GreedyPackingIsUnique(Paragraphs(text), maxTokens, groups);
    }
  }

  // ---------------------------------------------------------------------------
  // What the chunker promises
  // ---------------------------------------------------------------------------

  lemma FlattenSnoc<T>(groups: seq<seq<T>>, g: seq<T>)
    ensures Flatten(groups + [g]) == Flatten(groups) + g
  {
    assert (groups + [g])[..|groups|] == groups;
  }

  /** Growing the last group by one item grows the flattening by that item. */
  lemma FlattenGrow<T>(groups: seq<seq<T>>, p: T)
    requires |groups| >= 1
    ensures Flatten(groups[..|groups| - 1] + [groups[|groups| - 1] + [p]]) == Flatten(groups) + [p]
  {
    var closed, open := groups[..|groups| - 1], groups[|groups| - 1];
    SplitLast(groups);
    FlattenSnoc(closed, open + [p]);
    FlattenSnoc(closed, open);
  }

  lemma SplitLast<T>(s: seq<T>)
    requires |s| >= 1
    ensures s[..|s| - 1] + [s[|s| - 1]] == s
  {
  }

  lemma {:induction false} PackCoversParagraphs(paras: seq<string>, maxTokens: int)
    ensures Flatten(Pack(paras, maxTokens)) == paras
    decreases |paras|
  {
    if |paras| > 0 {
      var n := |paras|;
      var prev := Pack(paras[..n - 1], maxTokens);
      var p := paras[n - 1];
      SplitLast(paras);
      PackCoversParagraphs(paras[..n - 1], maxTokens);
      PackLast(paras, maxTokens);
      if |OpenText(prev)| + |p| <= maxTokens {
        FlattenGrow(prev, p);
      } else {
        FlattenSnoc(prev, [p]);
      }
    }
  }

  // The greedy rule stated on a grouping, without reference to the loop: the
  // groups cover the paragraphs in order; a paragraph joins its group after
  // the group's earlier paragraphs only when they fit together within the
  // cap; and each later group is opened by a paragraph that did not fit in
  // the group before (so only the first group may be empty).

  /** The `j`-th paragraph of `group` fits after the ones before it. */
  predicate FitsAt(group: seq<string>, j: int, maxTokens: int)
    requires 0 <= j < |group|
  {
    |Render(group[..j])| + |group[j]| <= maxTokens
  }

  /** Every paragraph that joins a group (all but a later group's first) fits
      after the group's earlier paragraphs. */
  predicate JoinsFit(groups: seq<seq<string>>, maxTokens: int) {
    forall k, j :: 0 <= k < |groups| && 0 <= j < |groups[k]| && (k == 0 || j > 0) ==>
      FitsAt(groups[k], j, maxTokens)
  }

  /** `after` is opened by a paragraph that does not fit after `before`. */
  predicate Overflows(before: seq<string>, after: seq<string>, maxTokens: int) {
    after != [] && |Render(before)| + |after[0]| > maxTokens
  }

  /** Each later group is opened by a paragraph that overflows the group before. */
  predicate OpensOnOverflow(groups: seq<seq<string>>, maxTokens: int) {
    forall k :: 0 < k < |groups| ==> Overflows(groups[k - 1], groups[k], maxTokens)
  }

  lemma FitsAtPrefix(group: seq<string>, j: int, n: int, maxTokens: int)
    requires 0 <= j < n <= |group|
    ensures FitsAt(group[..n], j, maxTokens) == FitsAt(group, j, maxTokens)
  {
    assert group[..n][..j] == group[..j];
  }

  predicate GreedyShape(groups: seq<seq<string>>, maxTokens: int) {
    && |groups| >= 1
    && JoinsFit(groups, maxTokens)
    && OpensOnOverflow(groups, maxTokens)
  }

  /** `groups` is a greedy grouping of `paras` under the cap. */
  predicate GreedyPacking(paras: seq<string>, maxTokens: int, groups: seq<seq<string>>) {
    GreedyShape(groups, maxTokens) && Flatten(groups) == paras
  }

  /** A paragraph that fits keeps a greedy grouping greedy when it joins the
      open group. */
  lemma GreedyGrowOpen(groups: seq<seq<string>>, p: string, maxTokens: int)
    requires GreedyShape(groups, maxTokens)
    requires |Render(groups[|groups| - 1])| + |p| <= maxTokens
    ensures GreedyShape(groups[..|groups| - 1] + [groups[|groups| - 1] + [p]], maxTokens)
  {
    var m := |groups|;
    var open := groups[m - 1];
    var next := groups[..m - 1] + [open + [p]];
    assert next[m - 1] == open + [p];
    forall k, j | 0 <= k < |next| && 0 <= j < |next[k]| && (k == 0 || j > 0)
      ensures FitsAt(next[k], j, maxTokens)
    {
      if k < m - 1 {
        assert next[k] == groups[k];
      } else if j < |open| {
        assert next[k][..|open|] == open;
        FitsAtPrefix(next[k], j, |open|, maxTokens);
      } else {
        assert next[k][..j] == open;
      }
    }
    forall k | 0 < k < |next|
      ensures Overflows(next[k - 1], next[k], maxTokens)
    {
      assert next[k - 1] == groups[k - 1];
      if k < m - 1 {
        assert next[k] == groups[k];
      } else {
        assert Overflows(groups[k - 1], groups[k], maxTokens);
      }
    }
  }


  /** A paragraph that does not fit keeps a greedy grouping greedy when it
      opens a new group. */
  lemma GreedyOpenNew(groups: seq<seq<string>>, p: string, maxTokens: int)
    requires GreedyShape(groups, maxTokens)
    requires |Render(groups[|groups| - 1])| + |p| > maxTokens
    ensures GreedyShape(groups + [[p]], maxTokens)
  {
    var m := |groups|;
    var next := groups + [[p]];
    assert next[m] == [p];
    forall k, j | 0 <= k < |next| && 0 <= j < |next[k]| && (k == 0 || j > 0)
      ensures FitsAt(next[k], j, maxTokens)
    {
      assert next[k] == groups[k];
    }
    forall k | 0 < k < |next|
      ensures Overflows(next[k - 1], next[k], maxTokens)
    {
      assert next[k - 1] == groups[k - 1];
      if k < m {
        assert next[k] == groups[k];
      }
    }
  }


  /** The loop's grouping obeys the greedy rule and covers the paragraphs. */
  lemma {:induction false} PackIsGreedy(paras: seq<string>, maxTokens: int)
    ensures GreedyPacking(paras, maxTokens, Pack(paras, maxTokens))
    decreases |paras|
  {
    PackCoversParagraphs(paras, maxTokens);
    if |paras| > 0 {
      var n := |paras|;
      var prev := Pack(paras[..n - 1], maxTokens);
      var m := |prev|;
      var open := prev[m - 1];
      var p := paras[n - 1];
      PackIsGreedy(paras[..n - 1], maxTokens);
      if |Render(open)| + |p| <= maxTokens {
        assert Pack(paras, maxTokens) == prev[..m - 1] + [open + [p]];
        GreedyGrowOpen(prev, p, maxTokens);
      } else {
        assert Pack(paras, maxTokens) == prev + [[p]];
        GreedyOpenNew(prev, p, maxTokens);
      }
    }
  }

  /** The last group of a grouping that covers at least one paragraph is not empty. */
  lemma LastGroupNonEmpty(paras: seq<string>, maxTokens: int, groups: seq<seq<string>>)
    requires GreedyPacking(paras, maxTokens, groups)
    requires paras != []
    ensures groups[|groups| - 1] != []
  {
    var m := |groups|;
    if m == 1 {
      assert groups[..0] == [];
      assert Flatten(groups) == groups[0];
    } else {
      assert Overflows(groups[m - 2], groups[m - 1], maxTokens);
    }
  }

  /** A grouping with more than one group covers at least one paragraph. */
  lemma LaterGroupCovers(groups: seq<seq<string>>, maxTokens: int)
    requires OpensOnOverflow(groups, maxTokens) && |groups| > 1
    ensures Flatten(groups) != []
  {
    var m := |groups|;
    assert Overflows(groups[m - 2], groups[m - 1], maxTokens);
  }

  /** A grouping of no paragraphs is a single empty group. */
  lemma GreedyOfNothing(maxTokens: int, groups: seq<seq<string>>)
    requires GreedyPacking([], maxTokens, groups)
    ensures groups == [[]]
  {
    var m := |groups|;
    if m > 1 {
      LaterGroupCovers(groups, maxTokens);
      assert false;
    }
    assert groups[..m - 1] == [];
    assert Flatten(groups) == groups[0];
  }

  /** Dropping the last paragraph of an open group that is the only group or
      holds several paragraphs keeps the greedy shape. */
  lemma GreedyShrinkOpen(groups: seq<seq<string>>, maxTokens: int)
    requires GreedyShape(groups, maxTokens)
    requires groups[|groups| - 1] != []
    requires |groups| == 1 || |groups[|groups| - 1]| > 1
    ensures GreedyShape(groups[..|groups| - 1] + [groups[|groups| - 1][..|groups[|groups| - 1]| - 1]], maxTokens)
  {
    var m := |groups|;
    var last := groups[m - 1];
    var open := last[..|last| - 1];
    var prev := groups[..m - 1] + [open];
    assert prev[m - 1] == open;
    forall k, j | 0 <= k < |prev| && 0 <= j < |prev[k]| && (k == 0 || j > 0)
      ensures FitsAt(prev[k], j, maxTokens)
    {
      if k < m - 1 {
        assert prev[k] == groups[k];
      } else {
        FitsAtPrefix(last, j, |last| - 1, maxTokens);
      }
    }
    forall k | 0 < k < |prev|
      ensures Overflows(prev[k - 1], prev[k], maxTokens)
    {
      assert prev[k - 1] == groups[k - 1];
      if k < m - 1 {
        assert prev[k] == groups[k];
      } else {
        assert Overflows(groups[k - 1], last, maxTokens);
        assert open[0] == last[0];
      }
    }
  }


  /** A greedy grouping whose last group holds only the last paragraph, and is
      not the only group, came from opening that group on overflow; without it
      the grouping is still greedy. */
  lemma GreedyDropOpen(paras: seq<string>, maxTokens: int, groups: seq<seq<string>>)
    requires GreedyPacking(paras, maxTokens, groups)
    requires |groups| > 1 && |groups[|groups| - 1]| == 1
    ensures |paras| > 0
    ensures groups[|groups| - 1] == [paras[|paras| - 1]]
    ensures |Render(groups[|groups| - 2])| + |paras[|paras| - 1]| > maxTokens
    ensures GreedyPacking(paras[..|paras| - 1], maxTokens, groups[..|groups| - 1])
  {
    var m := |groups|;
    var closed := groups[..m - 1];
    assert groups == closed + [groups[m - 1]];
    FlattenSnoc(closed, groups[m - 1]);
    assert paras[..|paras| - 1] == Flatten(closed);
    assert forall k :: 0 <= k < m - 1 ==> closed[k] == groups[k];
  }

  /** The last paragraph of the last group joined it without overflow, unless
      it opened that group on overflow. */
  lemma GreedyLastJoinFits(groups: seq<seq<string>>, maxTokens: int)
    requires JoinsFit(groups, maxTokens)
    requires |groups| >= 1 && groups[|groups| - 1] != []
    requires |groups| == 1 || |groups[|groups| - 1]| > 1
    ensures var last := groups[|groups| - 1];
            |Render(last[..|last| - 1])| + |last[|last| - 1]| <= maxTokens
  {
    var k := |groups| - 1;
    var j := |groups[k]| - 1;
    assert FitsAt(groups[k], j, maxTokens);
  }


  /** A greedy grouping whose last group holds the last paragraph together
      with others, or is the only group, came from extending that group;
      without the last paragraph the grouping is still greedy. */
  lemma GreedyShrinkLast(paras: seq<string>, maxTokens: int, groups: seq<seq<string>>)
    requires GreedyPacking(paras, maxTokens, groups)
    requires paras != []
    requires |groups| == 1 || |groups[|groups| - 1]| != 1
    ensures groups[|groups| - 1] != []
    ensures groups[|groups| - 1][|groups[|groups| - 1]| - 1] == paras[|paras| - 1]
    ensures |Render(groups[|groups| - 1][..|groups[|groups| - 1]| - 1])| + |paras[|paras| - 1]| <= maxTokens
    ensures GreedyPacking(paras[..|paras| - 1], maxTokens,
                          groups[..|groups| - 1] + [groups[|groups| - 1][..|groups[|groups| - 1]| - 1]])
  {
    LastGroupNonEmpty(paras, maxTokens, groups);
    var n := |paras|;
    var m := |groups|;
    var last := groups[m - 1];
    var closed := groups[..m - 1];
    var open := last[..|last| - 1];
    assert groups == closed + [last];
    FlattenSnoc(closed, last);
    FlattenSnoc(closed, open);
    assert last == open + [last[|last| - 1]];
    assert paras == (Flatten(closed) + open) + [last[|last| - 1]];
    assert paras[..n - 1] == Flatten(closed) + open;
    GreedyShrinkOpen(groups, maxTokens);
    GreedyLastJoinFits(groups, maxTokens);
  }

  /** The loop's step that opens a new group, read backwards. */
  lemma PackOpensLast(paras: seq<string>, maxTokens: int, groups: seq<seq<string>>)
    requires |paras| > 0 && |groups| > 1
    requires groups[|groups| - 1] == [paras[|paras| - 1]]
    requires |Render(groups[|groups| - 2])| + |paras[|paras| - 1]| > maxTokens
    requires Pack(paras[..|paras| - 1], maxTokens) == groups[..|groups| - 1]
    ensures Pack(paras, maxTokens) == groups
  {
    var m := |groups|;
    PackLast(paras, maxTokens);
    assert groups[..m - 1][m - 2] == groups[m - 2];
    assert groups == groups[..m - 1] + [groups[m - 1]];
  }

  /** The loop's step that extends the open group, read backwards. */
  lemma PackExtendsLast(paras: seq<string>, maxTokens: int, groups: seq<seq<string>>)
    requires |paras| > 0 && |groups| >= 1
    requires groups[|groups| - 1] != []
    requires groups[|groups| - 1][|groups[|groups| - 1]| - 1] == paras[|paras| - 1]
    requires |Render(groups[|groups| - 1][..|groups[|groups| - 1]| - 1])| + |paras[|paras| - 1]| <= maxTokens
    requires Pack(paras[..|paras| - 1], maxTokens) ==
             groups[..|groups| - 1] + [groups[|groups| - 1][..|groups[|groups| - 1]| - 1]]
    ensures Pack(paras, maxTokens) == groups
  {
    var n := |paras|;
    var last := groups[|groups| - 1];
    var prev := groups[..|groups| - 1] + [last[..|last| - 1]];
    ReplaceLast(groups);
    PackLast(paras, maxTokens);
    assert paras[n - 1] == last[|last| - 1];
  }

  /** `Pack` on a non-empty list, one step unfolded. */
  lemma PackLast(paras: seq<string>, maxTokens: int)
    requires paras != []
    ensures var prev := Pack(paras[..|paras| - 1], maxTokens);
            var para := paras[|paras| - 1];
            Pack(paras, maxTokens) ==
              if |OpenText(prev)| + |para| <= maxTokens then prev[..|prev| - 1] + [prev[|prev| - 1] + [para]]
              else prev + [[para]]
  {
  }

  /** Taking the last item off the last group and putting it back. */
  lemma ReplaceLast<T>(groups: seq<seq<T>>)
    requires |groups| >= 1 && groups[|groups| - 1] != []
    ensures var last := groups[|groups| - 1];
            var prev := groups[..|groups| - 1] + [last[..|last| - 1]];
            && prev[|prev| - 1] == last[..|last| - 1]
            && prev[..|prev| - 1] + [prev[|prev| - 1] + [last[|last| - 1]]] == groups
  {
    var last := groups[|groups| - 1];
    assert last[..|last| - 1] + [last[|last| - 1]] == last;
  }

  /** The greedy rule determines the grouping: the loop's grouping is the only
      one that obeys it. */
  lemma {:induction false} GreedyPackingIsUnique(paras: seq<string>, maxTokens: int, groups: seq<seq<string>>)
    requires GreedyPacking(paras, maxTokens, groups)
    ensures groups == Pack(paras, maxTokens)
    decreases |paras|
  {
    var m := |groups|;
    if paras == [] {
      GreedyOfNothing(maxTokens, groups);
    } else if m > 1 && |groups[m - 1]| == 1 {
      GreedyDropOpen(paras, maxTokens, groups);
      GreedyPackingIsUnique(paras[..|paras| - 1], maxTokens, groups[..m - 1]);
      PackOpensLast(paras, maxTokens, groups);
    } else {
      GreedyShrinkLast(paras, maxTokens, groups);
      var last := groups[m - 1];
      GreedyPackingIsUnique(paras[..|paras| - 1], maxTokens, groups[..m - 1] + [last[..|last| - 1]]);
      PackExtendsLast(paras, maxTokens, groups);
    }
  }

  // ---------------------------------------------------------------------------
  // The chunks themselves
  // ---------------------------------------------------------------------------

  /** The accumulated text of a group is its paragraphs joined by the
      separator, plus one trailing separator. */
  lemma {:induction false} RenderIsJoin(group: seq<string>)
    requires group != []
    ensures Render(group) == Join(group, Sep) + Sep
    decreases |group|
  {
    var init := group[..|group| - 1];
    if |group| > 1 {
      RenderIsJoin(init);
      JoinSnoc(init, group[|group| - 1], Sep);
      assert group == init + [group[|group| - 1]];
    } else {
      assert init == [];
    }
  }

  lemma {:induction false} JoinSnoc(parts: seq<string>, p: string, sep: string)
    requires parts != []
    ensures Join(parts + [p], sep) == Join(parts, sep) + sep + p
    decreases |parts|
  {
    if |parts| == 1 {
      assert (parts + [p])[1..] == [p];
    } else {
      assert (parts + [p])[1..] == parts[1..] + [p];
      JoinSnoc(parts[1..], p, sep);
    }
  }

  /** A group's chunk is its paragraphs joined by the separator, stripped. */
  lemma GroupChunkIsJoin(group: seq<string>)
    ensures Strip(Render(group)) == Strip(Join(group, Sep))
  {
    if group != [] {
      var joined := Join(group, Sep);
      RenderIsJoin(group);
      SeparatorIsSpace();
      EmptyFront(joined, Sep);
      StripAbsorbsPadding([], joined, Sep);
    }
  }

  lemma SeparatorIsSpace()
    ensures AllSpace(Sep) && AllSpace([])
  {
  }

  lemma EmptyFront<T>(a: seq<T>, b: seq<T>)
    ensures [] + a + b == a + b
  {
  }

  /** Every group yields a chunk, and each chunk is one group's paragraphs
      joined by the separator, stripped. */
  lemma ChunksAreJoinedGroups(paras: seq<string>, maxTokens: int)
    requires paras != []
    ensures |Chunks(paras, maxTokens)| == |Pack(paras, maxTokens)|
    ensures forall k :: 0 <= k < |Chunks(paras, maxTokens)| ==>
              Chunks(paras, maxTokens)[k] == Strip(Join(Pack(paras, maxTokens)[k], Sep))
  {
    var groups := Pack(paras, maxTokens);
    PackIsGreedy(paras, maxTokens);
    LastGroupNonEmpty(paras, maxTokens, groups);
    RenderIsJoin(groups[|groups| - 1]);
    var chunks := Chunks(paras, maxTokens);
    assert |chunks| == |groups|;
    forall k | 0 <= k < |chunks|
      ensures chunks[k] == Strip(Join(groups[k], Sep))
    {
      assert chunks[k] == Strip(Render(groups[k]));
      GroupChunkIsJoin(groups[k]);
    }
  }

  /** Every paragraph of every group is one of the paragraphs grouped. */
  lemma {:induction false} FlattenContains(groups: seq<seq<string>>, k: int, j: int)
    requires 0 <= k < |groups| && 0 <= j < |groups[k]|
    ensures groups[k][j] in Flatten(groups)
    decreases |groups|
  {
    var init := groups[..|groups| - 1];
    if k < |groups| - 1 {
      FlattenContains(init, k, j);
      assert init[k] == groups[k];
    }
  }

  /** The chunk of one group is within the cap when the group's paragraphs
      are. */
  lemma GroupChunkFits(groups: seq<seq<string>>, maxTokens: int, k: int)
    requires GreedyShape(groups, maxTokens)
    requires 0 <= k < |groups| && 0 <= maxTokens
    requires forall j :: 0 <= j < |groups[k]| ==> |groups[k][j]| <= maxTokens
    ensures |Strip(Render(groups[k]))| <= maxTokens
  {
    var g := groups[k];
    if g != [] {
      var n := |g|;
      var init := g[..n - 1];
      StripDropsSeparator(Render(init) + g[n - 1]);
      if k == 0 || n > 1 {
        assert FitsAt(g, n - 1, maxTokens);
      } else {
        assert init == [];
      }
    }
  }

  /** When no paragraph exceeds the cap, no chunk does. A longer paragraph
      always ends up alone in its chunk, which may then exceed the cap. */
  lemma ChunksFitCap(paras: seq<string>, maxTokens: int)
    requires 0 <= maxTokens
    requires forall i :: 0 <= i < |paras| ==> |paras[i]| <= maxTokens
    ensures forall c :: c in Chunks(paras, maxTokens) ==> |c| <= maxTokens
  {
    var chunks := Chunks(paras, maxTokens);
    forall c | c in chunks
      ensures |c| <= maxTokens
    {
      var k :| 0 <= k < |chunks| && chunks[k] == c;
      ChunkFitsCap(paras, maxTokens, k);
    }
  }

  /** The `k`-th chunk is within the cap when every paragraph is. */
  lemma ChunkFitsCap(paras: seq<string>, maxTokens: int, k: int)
    requires 0 <= maxTokens
    requires forall i :: 0 <= i < |paras| ==> |paras[i]| <= maxTokens
    requires 0 <= k < |Chunks(paras, maxTokens)|
    ensures |Chunks(paras, maxTokens)[k]| <= maxTokens
  {
    var groups := Pack(paras, maxTokens);
    PackIsGreedy(paras, maxTokens);
    assert Chunks(paras, maxTokens)[k] == Strip(Render(groups[k]));
    forall j | 0 <= j < |groups[k]|
      ensures |groups[k][j]| <= maxTokens
    {
      FlattenContains(groups, k, j);
    }
    GroupChunkFits(groups, maxTokens, k);
  }

  /** A paragraph longer than the cap opens a new group, so when the first
      paragraph is that long the chunker's first chunk is the empty text it
      flushed before it. */
  lemma OversizedFirstParagraph(paras: seq<string>, maxTokens: int)
    requires paras != [] && |paras[0]| > maxTokens
    ensures |Chunks(paras, maxTokens)| >= 2
    ensures Chunks(paras, maxTokens)[0] == ""
  {
    var groups := Pack(paras, maxTokens);
    PackIsGreedy(paras, maxTokens);
    FirstGroupEmpty(paras, maxTokens);
    LastGroupNonEmpty(paras, maxTokens, groups);
    ChunksAreJoinedGroups(paras, maxTokens);
  }

  /** The first group stays empty when the first paragraph is over the cap. */
  lemma FirstGroupEmpty(paras: seq<string>, maxTokens: int)
    requires paras != [] && |paras[0]| > maxTokens
    ensures Pack(paras, maxTokens)[0] == []
  {
    var groups := Pack(paras, maxTokens);
    PackIsGreedy(paras, maxTokens);
    if groups[0] != [] {
      FlattenHead(groups);
      FirstParagraphFits(groups, maxTokens);
      assert false;
    }
  }

  /** In a greedy grouping a paragraph that starts the first group fits the cap. */
  lemma FirstParagraphFits(groups: seq<seq<string>>, maxTokens: int)
    requires GreedyShape(groups, maxTokens) && groups[0] != []
    ensures |groups[0][0]| <= maxTokens
  {
    assert FitsAt(groups[0], 0, maxTokens);
    assert groups[0][..0] == [];
  }

  /** The first paragraph of a grouping whose first group is non-empty leads it. */
  lemma {:induction false} FlattenHead(groups: seq<seq<string>>)
    requires |groups| >= 1 && groups[0] != []
    ensures Flatten(groups) != [] && Flatten(groups)[0] == groups[0][0]
    decreases |groups|
  {
    if |groups| > 1 {
      var init := groups[..|groups| - 1];
      FlattenHead(init);
    } else {
      assert groups[..0] == [];
    }
  }

  /** A group of whitespace-only paragraphs makes an empty chunk. */
  lemma BlankGroupChunk(groups: seq<seq<string>>, k: int)
    requires 0 <= k < |groups|
    requires forall i :: 0 <= i < |Flatten(groups)| ==> AllSpace(Flatten(groups)[i])
    ensures Strip(Join(groups[k], Sep)) == []
  {
    forall j | 0 <= j < |groups[k]|
      ensures AllSpace(groups[k][j])
    {
      FlattenContains(groups, k, j);
    }
    JoinOfBlank(groups[k], Sep);
    StripEmptyIffAllSpace(Join(groups[k], Sep));
  }

  /** A whitespace-only text chunks into empty chunks only. */
  lemma BlankTextChunksEmpty(text: string, maxTokens: int)
    requires AllSpace(text)
    ensures forall c :: c in Chunks(Paragraphs(text), maxTokens) ==> c == []
  {
    var chunks := Chunks(Paragraphs(text), maxTokens);
    forall c | c in chunks
      ensures c == []
    {
      var k :| 0 <= k < |chunks| && chunks[k] == c;
      BlankTextChunkEmpty(text, maxTokens, k);
    }
  }

  /** The `k`-th chunk of a whitespace-only text is empty. */
  lemma BlankTextChunkEmpty(text: string, maxTokens: int, k: int)
    requires AllSpace(text)
    requires 0 <= k < |Chunks(Paragraphs(text), maxTokens)|
    ensures Chunks(Paragraphs(text), maxTokens)[k] == []
  {
    var paras := Paragraphs(text);
    var groups := Pack(paras, maxTokens);
    SplitOfBlank(text, Sep);
    PackCoversParagraphs(paras, maxTokens);
    assert forall i :: 0 <= i < |Flatten(groups)| ==> AllSpace(Flatten(groups)[i]) by {
      forall i | 0 <= i < |paras|
        ensures AllSpace(paras[i])
      {
        assert paras[i] in paras;
      }
    }
    ChunksAreJoinedGroups(paras, maxTokens);
    BlankGroupChunk(groups, k);
  }

  /** Every paragraph of the flattened grouping sits in some group. */
  lemma {:induction false} FlattenMember(groups: seq<seq<string>>, i: int) returns (k: int, j: int)
    requires 0 <= i < |Flatten(groups)|
    ensures 0 <= k < |groups| && 0 <= j < |groups[k]| && Flatten(groups)[i] == groups[k][j]
    decreases |groups|
  {
    var init := groups[..|groups| - 1];
    if i < |Flatten(init)| {
      k, j := FlattenMember(init, i);
      assert init[k] == groups[k];
    } else {
      k, j := |groups| - 1, i - |Flatten(init)|;
    }
  }

  /** A text chunks into empty chunks only exactly when it is whitespace only:
      a single non-blank character anywhere survives into some chunk. */
  lemma ChunksEmptyIffBlank(text: string, maxTokens: int)
    ensures (forall c :: c in Chunks(Paragraphs(text), maxTokens) ==> c == []) <==> AllSpace(text)
  {
    if AllSpace(text) {
      BlankTextChunksEmpty(text, maxTokens);
    } else if forall c :: c in Chunks(Paragraphs(text), maxTokens) ==> c == [] {
      EmptyChunksMeanBlank(text, maxTokens);
      assert false;
    }
  }

  /** When every chunk is empty, so is every grouped paragraph, and the text
      they rejoin to is whitespace only. */
  lemma EmptyChunksMeanBlank(text: string, maxTokens: int)
    requires forall c :: c in Chunks(Paragraphs(text), maxTokens) ==> c == []
    ensures AllSpace(text)
  {
    var paras := Paragraphs(text);
    var flat := Flatten(Pack(paras, maxTokens));
    forall i | 0 <= i < |flat|
      ensures AllSpace(flat[i])
    {
      var k, j := FlattenMember(Pack(paras, maxTokens), i);
      EmptyChunkBlankGroup(paras, maxTokens, k);
    }
    assert AllSpace(Sep);
    JoinOfBlank(flat, Sep);
    ChunkingKeepsText(text, maxTokens);
  }

  /** An empty chunk comes from a group of whitespace-only paragraphs. */
  lemma EmptyChunkBlankGroup(paras: seq<string>, maxTokens: int, k: int)
    requires paras != [] && 0 <= k < |Pack(paras, maxTokens)|
    requires forall c :: c in Chunks(paras, maxTokens) ==> c == []
    ensures forall j :: 0 <= j < |Pack(paras, maxTokens)[k]| ==> AllSpace(Pack(paras, maxTokens)[k][j])
  {
    var group := Pack(paras, maxTokens)[k];
    ChunksAreJoinedGroups(paras, maxTokens);
    assert Chunks(paras, maxTokens)[k] in Chunks(paras, maxTokens);
    StripEmptyIffAllSpace(Join(group, Sep));
    JoinBlankParts(group, Sep);
  }

  /** No text is lost or reordered: the grouped paragraphs, joined back with
      the separator, are the original text. */
  lemma ChunkingKeepsText(text: string, maxTokens: int)
    ensures Join(Flatten(Pack(Paragraphs(text), maxTokens)), Sep) == text
  {
    PackCoversParagraphs(Paragraphs(text), maxTokens);
    JoinSplit(text, Sep);
  }

  // ---------------------------------------------------------------------------
  // File types
  // ---------------------------------------------------------------------------

  newtype byte = x: int | 0 <= x < 256

  /** The formats the parser can read. */
  datatype Format = Pdf | Docx | Txt

  /** The extension that names a format. */
  function ExtensionOf(f: Format): string {
    match f
    case Pdf => ".pdf"
    case Docx => ".docx"
    case Txt => ".txt"
  }

  /** The format an extension names, if any; extensions are compared exactly,
      so callers lower-case them first. */
  function FormatOf(ext: string): (f: Option<Format>)
    ensures f.Some? ==> ExtensionOf(f.value) == ext
  {
    if ext == ".pdf" then Some(Pdf)
    else if ext == ".docx" then Some(Docx)
    else if ext == ".txt" then Some(Txt)
    else None
  }

  /** One of `.pdf`, `.docx`, `.txt`. */
  predicate IsSupported(ext: string) {
    FormatOf(ext).Some?
  }

  /** Every format's extension names it back: the two tables agree. */
  lemma FormatExtensionRoundTrip(f: Format)
    ensures FormatOf(ExtensionOf(f)) == Some(f)
  {
  }

  /** What detection may observe of a file: whether it opens at all, its
      bytes, and whether the file reads as UTF-8 text (an abstract flag: the
      text reader's verdict, which the model does not compute). */
  datatype FileProbe = FileProbe(opens: bool, content: seq<byte>, readsAsUtf8: bool)

  /** The header detection reads: at most the first eight bytes. */
  function Header(content: seq<byte>): (h: seq<byte>)
    ensures |h| <= 8 && h <= content
    ensures |content| >= 8 ==> |h| == 8
    ensures |h| == if |content| < 8 then |content| else 8
  {
    if |content| <= 8 then content else content[..8]
  }

  const PdfMagic: seq<byte> := [0x25, 0x50, 0x44, 0x46]        // "%PDF"
  const ZipLocalMagic: seq<byte> := [0x50, 0x4B, 0x03, 0x04]   // "PK\x03\x04"
  const ZipEmptyMagic: seq<byte> := [0x50, 0x4B, 0x05, 0x06]   // "PK\x05\x06"
  const ZipSpannedMagic: seq<byte> := [0x50, 0x4B, 0x07, 0x08] // "PK\x07\x08"

  predicate IsZipHeader(h: seq<byte>) {
    ZipLocalMagic <= h || ZipEmptyMagic <= h || ZipSpannedMagic <= h
  }

  /** `detect_file_type`: classify a file by its header, falling back to text
      when it decodes as UTF-8; `None` when it cannot be opened or read. */
  function DetectFileType(probe: FileProbe): (r: Option<Format>)
    ensures r == Some(Pdf) <==> probe.opens && PdfMagic <= probe.content
    ensures r == Some(Docx) <==>
              probe.opens && !(PdfMagic <= probe.content) && IsZipHeader(probe.content)
    ensures r == Some(Txt) <==>
              probe.opens && !(PdfMagic <= probe.content) && !IsZipHeader(probe.content) && probe.readsAsUtf8
  {
    if !probe.opens then None
    else
      var header := Header(probe.content);
      HeaderDecides(probe.content);
      if PdfMagic <= header then Some(Pdf)
      else if IsZipHeader(header) then Some(Docx)
      else if probe.readsAsUtf8 then Some(Txt)
      else None
  }

  /** The magic numbers fit in the header, so reading eight bytes loses
      nothing detection needs. */
  lemma HeaderDecides(content: seq<byte>)
    ensures PdfMagic <= Header(content) <==> PdfMagic <= content
    ensures IsZipHeader(Header(content)) <==> IsZipHeader(content)
  {
    var h := Header(content);
    PrefixThroughHeader(PdfMagic, content);
    PrefixThroughHeader(ZipLocalMagic, content);
    PrefixThroughHeader(ZipEmptyMagic, content);
    PrefixThroughHeader(ZipSpannedMagic, content);
  }

  lemma PrefixThroughHeader(magic: seq<byte>, content: seq<byte>)
    requires |magic| <= 8
    ensures magic <= Header(content) <==> magic <= content
  {
    var h := Header(content);
    if magic <= content {
      assert content[..|magic|] == magic;
      assert h[..|magic|] == content[..|magic|];
    }
  }

  /** A PDF signature wins even when the bytes after it would also pass as
      text: the checks run in the order PDF, ZIP, text. */
  lemma PdfCheckedFirst(probe: FileProbe)
    requires probe.opens && PdfMagic <= probe.content
    ensures DetectFileType(probe) == Some(Pdf)
  {
  }

  /** Detection never reports an unsupported format, and fails only on a file
      that cannot be opened or is neither a known binary nor UTF-8 text. */
  lemma DetectionFailsOnlyOnUnreadable(probe: FileProbe)
    ensures DetectFileType(probe) == None <==>
              !probe.opens || (!(PdfMagic <= probe.content) && !IsZipHeader(probe.content) && !probe.readsAsUtf8)
  {
    var r := DetectFileType(probe);
    if r.Some? {
      assert r.value == Pdf || r.value == Docx || r.value == Txt;
    }
  }

  // ---------------------------------------------------------------------------
  // Paths
  // ---------------------------------------------------------------------------

  /** The index of the last `c` in `s`, or -1 when there is none. */
  function LastIndex(s: string, c: char): (r: int)
    ensures -1 <= r < |s|
    ensures r >= 0 ==> s[r] == c
    ensures forall i :: r < i < |s| ==> s[i] != c
  {
    if |s| == 0 then -1
    else if s[|s| - 1] == c then |s| - 1
    else LastIndex(s[..|s| - 1], c)
  }

  /** The final component of a slash-separated path. */
  function FileName(path: string): (name: string)
    ensures '/' !in name
    ensures |name| <= |path| && name == path[|path| - |name|..]
  {
    path[LastIndex(path, '/') + 1..]
  }

  /** `Path(path).suffix`: the final component's last dot-segment, dot
      included, provided that dot neither starts nor ends the name. */
  function Suffix(path: string): (ext: string)
    ensures ext != [] ==> ext[0] == '.' && |ext| >= 2 && '.' !in ext[1..] && '/' !in ext
    ensures |ext| <= |FileName(path)| && ext == FileName(path)[|FileName(path)| - |ext|..]
    ensures ext != [] <==> exists i :: 0 < i < |FileName(path)| - 1 && InteriorLastDot(FileName(path), i)
  {
    var name := FileName(path);
    var i := LastIndex(name, '.');
    LastDotIsLastIndex(name);
    if 0 < i < |name| - 1 then name[i..]
    else []
  }

  /** Position `i` holds the name's last dot. */
  predicate InteriorLastDot(name: string, i: int)
    requires 0 <= i < |name|
  {
    name[i] == '.' && '.' !in name[i + 1..]
  }

  /** Only the position `LastIndex` finds holds the last dot. */
  lemma LastDotIsLastIndex(name: string)
    ensures forall i :: 0 <= i < |name| && InteriorLastDot(name, i) ==> i == LastIndex(name, '.')
    ensures 0 <= LastIndex(name, '.') ==> InteriorLastDot(name, LastIndex(name, '.'))
  {
  }

  /** The path of an upload's temporary file: a directory, then a name made of
      letters, digits and underscores, then the chosen extension. */
  function TempPath(dir: string, name: string, ext: string): string {
    dir + "/" + name + ext
  }

  /** A name without dots or slashes, as the temporary-file namer makes. */
  predicate IsPlainName(name: string) {
    name != [] && '.' !in name && '/' !in name
  }

  /** The temporary file keeps the extension it was given, so parsing it
      dispatches on that extension and never falls back to detection. */
  lemma TempPathSuffix(dir: string, name: string, f: Format)
    requires IsPlainName(name)
    ensures Suffix(TempPath(dir, name, ExtensionOf(f))) == ExtensionOf(f)
  {
    var ext := ExtensionOf(f);
    ExtensionShape(f);
    TempFileName(dir, name, ext);
    var tail := name + ext;
    assert tail[|name|] == '.';
    assert forall i :: |name| < i < |tail| ==> tail[i] == ext[1..][i - |name| - 1];
    LastIndexAfter(tail, '.', |name|);
    assert tail[|name|..] == ext;
  }

  /** An extension is a dot followed by at least one character, none of them
      a dot or a slash. */
  lemma ExtensionShape(f: Format)
    ensures var ext := ExtensionOf(f);
            |ext| >= 2 && ext[0] == '.' && '.' !in ext[1..] && '/' !in ext
  {
  }

  /** The final component of a temporary path is the name and extension. */
  lemma TempFileName(dir: string, name: string, ext: string)
    requires '/' !in name && '/' !in ext
    ensures FileName(TempPath(dir, name, ext)) == name + ext
  {
    var path := TempPath(dir, name, ext);
    var tail := name + ext;
    assert path == (dir + "/") + tail;
    assert '/' !in tail;
    assert forall i :: |dir| < i < |path| ==> path[i] == tail[i - |dir| - 1];
    LastIndexAfter(path, '/', |dir|);
    assert path[|dir| + 1..] == tail;
  }

  /** When `c` occurs at `k` and nowhere after, `k` is its last index. */
  lemma LastIndexAfter(s: string, c: char, k: int)
    requires 0 <= k < |s| && s[k] == c
    requires forall i :: k < i < |s| ==> s[i] != c
    ensures LastIndex(s, c) == k
  {
  }

  // ---------------------------------------------------------------------------
  // Extraction dispatch
  // ---------------------------------------------------------------------------

  const SupportedTypes: string := ". Supported types: .pdf, .docx, .txt"

  /** The message of the `ValueError` raised when neither the name nor the
      content says what a file is. */
  function CannotDetermineMessage(path: string): string {
    "Cannot determine file type for: " + path + SupportedTypes
  }

  /** The message of the `ValueError` raised for an extension no reader handles. */
  function UnsupportedMessage(ext: string): string {
    "Unsupported file type: " + ext + SupportedTypes
  }

  /** The reader `extract_text` picks for a path: the lower-cased suffix when
      there is one, detection from the content when there is none. */
  function ExtractionFormat(path: string, probe: FileProbe): (r: Result<Format, string>)
    ensures r.Success? <==>
              IsSupported(Lower(Suffix(path))) || (Suffix(path) == [] && DetectFileType(probe).Some?)
    ensures Suffix(path) != [] && r.Success? ==> ExtensionOf(r.value) == Lower(Suffix(path))
    ensures Suffix(path) != [] && r.Failure? ==> r.error == UnsupportedMessage(Lower(Suffix(path)))
    ensures Suffix(path) == [] && r.Failure? ==> r.error == CannotDetermineMessage(path)
  {
    var ext := Lower(Suffix(path));
    if ext == [] then
      match DetectFileType(probe)
      case Some(f) => Success(f)
      case None => Failure(CannotDetermineMessage(path))
    else
      match FormatOf(ext)
      case Some(f) => Success(f)
      case None => Failure(UnsupportedMessage(ext))
  }

  /** `extract_text`: run the chosen reader. The readers (PyPDF2, python-docx,
      a UTF-8 file read) are the oracle `read`, whose failure text is what the
      library raised. */
  function ExtractText(path: string, probe: FileProbe, read: Format -> Result<string, string>): (r: Result<string, string>)
    ensures r.Success? ==> ExtractionFormat(path, probe).Success? &&
                           r == read(ExtractionFormat(path, probe).value)
    ensures ExtractionFormat(path, probe).Failure? ==> r == Failure(ExtractionFormat(path, probe).error)
    ensures ExtractionFormat(path, probe).Success? ==> r == read(ExtractionFormat(path, probe).value)
  {
    match ExtractionFormat(path, probe)
    case Success(f) => read(f)
    case Failure(e) => Failure(e)
  }

  /** A file with a suffix is judged by its suffix alone; its content is
      never inspected. */
  lemma SuffixIgnoresContent(path: string, p1: FileProbe, p2: FileProbe)
    requires Suffix(path) != []
    ensures ExtractionFormat(path, p1) == ExtractionFormat(path, p2)
  {
  }

  /** Suffixes are compared case-insensitively: `REPORT.PDF` is read as a PDF. */
  lemma SuffixCaseInsensitive(path: string, probe: FileProbe, f: Format)
    requires Lower(Suffix(path)) == ExtensionOf(f)
    ensures ExtractionFormat(path, probe) == Success(f)
  {
  }

  /** Only `.pdf`, `.docx` and `.txt` reach a reader: any other suffix is
      rejected with a `ValueError` before anything is read. */
  lemma OnlySupportedSuffixesRead(path: string, probe: FileProbe, read: Format -> Result<string, string>)
    requires Suffix(path) != [] && !IsSupported(Lower(Suffix(path)))
    ensures ExtractText(path, probe, read) == Failure(UnsupportedMessage(Lower(Suffix(path))))
  {
  }

  /** A file without a suffix is read as whatever its content is detected to
      be. */
  lemma MissingSuffixDetects(path: string, probe: FileProbe, read: Format -> Result<string, string>)
    requires Suffix(path) == []
    ensures ExtractText(path, probe, read) ==
              match DetectFileType(probe)
              case Some(f) => read(f)
              case None => Failure(CannotDetermineMessage(path))
  {
  }

  /** The upload handler's temporary file is read with the format its
      extension names, whatever its content. */
  lemma TempFileReadByExtension(dir: string, name: string, f: Format, probe: FileProbe,
                                read: Format -> Result<string, string>)
    requires IsPlainName(name)
    ensures ExtractText(TempPath(dir, name, ExtensionOf(f)), probe, read) == read(f)
  {
    var path := TempPath(dir, name, ExtensionOf(f));
    TempPathSuffix(dir, name, f);
    ExtensionIsLowerCase(f);
    FormatExtensionRoundTrip(f);
    assert ExtractionFormat(path, probe) == Success(f);
  }

  lemma ExtensionIsLowerCase(f: Format)
    ensures Lower(ExtensionOf(f)) == ExtensionOf(f)
  {
    var ext := ExtensionOf(f);
    assert forall i :: 0 <= i < |ext| ==> !('A' <= ext[i] <= 'Z');
  }
}

=== FILE: embeddings.dfy ===
/** The embedding service: the input cleaning `get_embedding` does before it
    calls the embedding model, the payload `store_text_embedding` builds, and
    the way `search_similar` reads hits back. The embedding model and the
    vector store are oracles passed in as functions. */
module Embeddings {
  import opened Wrappers
  import opened Text
  import opened Json

  /** The longest text sent to the embedding model. */
  const MaxInputLength: nat := 8000

  const NotNonEmptyMessage: string := "Text input must be a non-empty string"
  const EmptyAfterCleaningMessage: string := "Text input cannot be empty after cleaning"

  /** The checks and cleaning `get_embedding` applies: reject the empty
      string, strip, reject what stripped to nothing, keep at most the first
      8000 characters. */
  function CleanInput(text: string): (r: Result<string, string>)
    ensures text == [] ==> r == Failure(NotNonEmptyMessage)
    ensures text != [] && AllSpace(text) ==> r == Failure(EmptyAfterCleaningMessage)
    ensures r.Success? <==> !AllSpace(text)
    ensures r.Success? ==> r.value != [] && |r.value| <= MaxInputLength && r.value <= Strip(text)
    ensures r.Success? && |Strip(text)| <= MaxInputLength ==> r.value == Strip(text)
    ensures r.Success? && |Strip(text)| > MaxInputLength ==> |r.value| == MaxInputLength
  {
    StripEmptyIffAllSpace(text);
    if text == [] then Failure(NotNonEmptyMessage)
    else
      var cleaned := Strip(text);
      if cleaned == [] then Failure(EmptyAfterCleaningMessage)
      else if |cleaned| > MaxInputLength then Success(cleaned[..MaxInputLength])
      else Success(cleaned)
  }

  /** Whitespace around a non-empty text changes nothing about what is sent. */
  lemma CleanInputIgnoresPadding(w1: string, text: string, w2: string)
    requires AllSpace(w1) && AllSpace(w2) && text != []
    ensures CleanInput(w1 + text + w2) == CleanInput(text)
  {
    StripAbsorbsPadding(w1, text, w2);
  }

  /** `get_embedding`: clean the text, then ask the model. The model's failure
      propagates unchanged. */
  function GetEmbedding<V>(text: string, embed: string -> Result<V, string>): (r: Result<V, string>)
    ensures CleanInput(text).Failure? ==> r == Failure(CleanInput(text).error)
    ensures CleanInput(text).Success? ==> r == embed(CleanInput(text).value)
  {
    match CleanInput(text)
    case Failure(e) => Failure(e)
    case Success(cleaned) => embed(cleaned)
  }

  /** A stored point: an id, the text's vector, and the payload kept with it. */
  datatype Point<V> = Point(id: string, vector: V, payload: map<string, Json>)

  /** The payload `store_text_embedding` stores: the text under `"text"`, then
      the metadata spread over it, so a metadata `"text"` entry wins. */
  function Payload(text: string, metadata: map<string, Json>): (p: map<string, Json>)
    ensures p.Keys == metadata.Keys + {"text"}
    ensures forall k :: k in metadata ==> p[k] == metadata[k]
    ensures "text" !in metadata ==> p["text"] == JString(text)
  {
    map["text" := JString(text)] + metadata
  }

  /** The stored text survives exactly when the metadata has no `"text"` key. */
  lemma PayloadKeepsTextIffNoOverride(text: string, metadata: map<string, Json>)
    ensures Payload(text, metadata)["text"] == JString(text) <==>
              "text" !in metadata || metadata["text"] == JString(text)
  {
  }

  /** `store_text_embedding`: the point it upserts, or the error
      `get_embedding` raised. The point id is a fresh identifier handed in. */
  function StoreTextEmbedding<V>(text: string, metadata: map<string, Json>, id: string,
                                 embed: string -> Result<V, string>): (r: Result<Point<V>, string>)
    ensures r.Success? <==> GetEmbedding(text, embed).Success?
    ensures r.Success? ==> (r.value.vector == GetEmbedding(text, embed).value &&
                           r.value.payload == Payload(text, metadata) && r.value.id == id)
    ensures r.Failure? ==> r.error == GetEmbedding(text, embed).error
  {
    match GetEmbedding(text, embed)
    case Failure(e) => Failure(e)
    case Success(v) => Success(Point(id, v, Payload(text, metadata)))
  }

  /** A search hit: the payload stored with the matching point. */
  datatype Hit = Hit(payload: map<string, Json>)

  /** `str(KeyError("text"))`. */
  const MissingTextMessage: string := "'text'"

  /** `[hit.payload["text"] for hit in results]`: one text per hit, in hit
      order; a hit without a `"text"` entry raises `KeyError`. */
  function HitTexts(hits: seq<Hit>): (r: Result<seq<Json>, string>)
    ensures r.Success? <==> forall i :: 0 <= i < |hits| ==> "text" in hits[i].payload
    ensures r.Success? ==> (|r.value| == |hits| &&
              forall i :: 0 <= i < |hits| ==> r.value[i] == hits[i].payload["text"])
    ensures r.Failure? ==> r.error == MissingTextMessage
  {
    if hits == [] then Success([])
    else if "text" !in hits[0].payload then Failure(MissingTextMessage)
    else
      match HitTexts(hits[1..])
      case Failure(e) => Failure(e)
      case Success(rest) =>
        assert forall i :: 1 <= i < |hits| ==> hits[i] == hits[1..][i - 1];
        Success([hits[0].payload["text"]] + rest)
  }

  /** `search_similar`: embed the query, search, read each hit's text. The
      vector store's search is the oracle `search`, given the query vector and
      the result limit. */
  function SearchSimilar<V>(query: string, topK: int, embed: string -> Result<V, string>,
                            search: (V, int) -> Result<seq<Hit>, string>): (r: Result<seq<Json>, string>)
    ensures GetEmbedding(query, embed).Failure? ==> r == Failure(GetEmbedding(query, embed).error)
    ensures r.Success? ==> (GetEmbedding(query, embed).Success? &&
              search(GetEmbedding(query, embed).value, topK).Success? &&
              r == HitTexts(search(GetEmbedding(query, embed).value, topK).value))
    ensures GetEmbedding(query, embed).Success? ==>
              var found := search(GetEmbedding(query, embed).value, topK);
              (found.Failure? ==> r == Failure(found.error)) &&
              (found.Success? ==> r == HitTexts(found.value))
  {
    match GetEmbedding(query, embed)
    case Failure(e) => Failure(e)
    case Success(v) =>
      match search(v, topK)
      case Failure(e) => Failure(e)
      case Success(hits) => HitTexts(hits)
  }

  /** Reading texts distributes over concatenation of hit lists: hits are read
      independently and in order. */
  lemma HitTextsAppend(a: seq<Hit>, b: seq<Hit>)
    requires HitTexts(a).Success? && HitTexts(b).Success?
    ensures HitTexts(a + b) == Success(HitTexts(a).value + HitTexts(b).value)
  {
    var r := HitTexts(a + b);
    assert forall i :: 0 <= i < |a + b| ==> "text" in (a + b)[i].payload by {
      forall i | 0 <= i < |a + b|
        ensures "text" in (a + b)[i].payload
      {
        if i >= |a| {
          assert (a + b)[i] == b[i - |a|];
        }
      }
    }
    var lhs := r.value;
    var rhs := HitTexts(a).value + HitTexts(b).value;
    assert |lhs| == |rhs|;
    forall i | 0 <= i < |lhs|
      ensures lhs[i] == rhs[i]
    {
      if i >= |a| {
        assert (a + b)[i] == b[i - |a|];
      }
    }
    assert lhs == rhs;
  }
}

=== FILE: json.dfy ===
/** JSON values as the two halves of the app exchange them, and the way
    JavaScript renders a value inside a template string. Numbers are
    integers here: every number the app reads is a count. */
module Json {
  import opened Wrappers
  import opened Text

  datatype Json =
    | JNull
    | JBool(b: bool)
    | JNumber(n: int)
    | JString(s: string)
    | JArray(items: seq<Json>)
    | JObject(fields: map<string, Json>)

  /** A JavaScript value read out of parsed JSON: reading a missing property
      gives `undefined`. */
  datatype JsValue = Undefined | Value(json: Json)

  /** `v.key` in JavaScript, for a key that is neither `length` nor a name
      inherited from `Object.prototype` (the app reads `answer`, `sources` and
      `chunks_uploaded`). Reading a property of `null` throws a TypeError;
      strings, numbers, booleans and arrays have no such property. */
  function Property(v: Json, key: string): (r: Result<JsValue, string>)
    ensures r.Failure? <==> v == JNull
    ensures r.Failure? ==> r.error == NullReadError(key)
    ensures r.Success? && r.value.Value? ==> v.JObject? && key in v.fields && r.value.json == v.fields[key]
    ensures v.JObject? && key in v.fields ==> r == Success(Value(v.fields[key]))
  {
    match v
    case JNull => Failure(NullReadError(key))
    case JObject(fields) => if key in fields then Success(Value(fields[key])) else Success(Undefined)
    case _ => Success(Undefined)
  }

  /** The TypeError's message for reading `key` of `null`. */
  function NullReadError(key: string): string {
    "Cannot read properties of null (reading '" + key + "')"
  }

  /** `String(v)`, which template interpolation applies. */
  function Display(v: JsValue): string {
    match v
    case Undefined => "undefined"
    case Value(j) => JsonDisplay(j)
  }

  function JsonDisplay(j: Json): string
    decreases j, 1
  {
    match j
    case JNull => "null"
    case JBool(b) => if b then "true" else "false"
    case JNumber(n) => IntToString(n)
    case JString(s) => s
    case JArray(items) =>
      assert forall x :: x in items ==> x < j;
      ItemsDisplay(j, items)
    case JObject(_) => "[object Object]"
  }

  /** `Array.prototype.join` with commas, which renders `null` as nothing. */
  function ItemsDisplay(parent: Json, items: seq<Json>): string
    requires forall x :: x in items ==> x < parent
    decreases parent, 0, |items|
  {
    if items == [] then ""
    else
      assert items[0] in items;
      assert forall x :: x in items[1..] ==> x in items;
      var head := if items[0] == JNull then "" else JsonDisplay(items[0]);
      if |items| == 1 then head else head + "," + ItemsDisplay(parent, items[1..])
  }

  /** A count renders as its decimal digits, so different counts render
      differently. */
  lemma CountDisplayInjective(a: nat, b: nat)
    requires Display(Value(JNumber(a))) == Display(Value(JNumber(b)))
    ensures a == b
  {
    NatToStringRoundTrip(a);
    NatToStringRoundTrip(b);
  }
}

=== FILE: mini_router.dfy ===
/** The app's hand-written router: the path held in state, the browser's
    session history it pushes onto, and the page chosen for a path. */
module MiniRouter {

  /** The session history (entries and the current position) and the path
      state the component renders from. */
  datatype Router = Router(entries: seq<string>, index: nat, path: string)
  {
    predicate Valid() {
      index < |entries|
    }

    /** `window.location.pathname`. */
    function Location(): string
      requires Valid()
    {
      entries[index]
    }

    /** The rendered path is the location's path. */
    predicate InSync()
      requires Valid()
    {
      path == Location()
    }
  }

  /** On load the state is read from the location. */
  function Start(pathname: string): (r: Router)
    ensures r.Valid() && r.InSync() && r.path == pathname
  {
    Router([pathname], 0, pathname)
  }

  /** `navigate(to)`: unless `to` is already the location's path, push a
      history entry (dropping any forward entries) and set the path. */
  function Navigate(r: Router, to: string): (r': Router)
    requires r.Valid()
    ensures r'.Valid() && r'.Location() == (if to == r.Location() then r.Location() else to)
  {
    if to == r.Location() then r
    else Router(r.entries[..r.index + 1] + [to], r.index + 1, to)
  }

  /** The popstate listener: the browser moved by `delta` entries (back is
      -1, forward +1) and the path is read back from the location. Moves
      outside the history leave this page and are not modelled. */
  function Traverse(r: Router, delta: int): (r': Router)
    requires r.Valid()
    ensures r'.Valid() && r'.entries == r.entries
    ensures 0 <= r.index + delta < |r.entries| ==>
              r'.index == r.index + delta && r'.path == r.entries[r.index + delta] && r'.InSync()
    ensures !(0 <= r.index + delta < |r.entries|) ==> r' == r
  {
    var target := r.index + delta;
    if 0 <= target < |r.entries| then Router(r.entries, target, r.entries[target]) else r
  }

  /** Navigating to the current location changes nothing. */
  lemma NavigateToCurrentIsNoOp(r: Router)
    requires r.Valid()
    ensures Navigate(r, r.Location()) == r
  {
  }

  /** Navigating elsewhere pushes exactly one entry after the current one and
      renders the new path. */
  lemma NavigatePushesOne(r: Router, to: string)
    requires r.Valid() && to != r.Location()
    ensures var r' := Navigate(r, to);
            |r'.entries| == r.index + 2 && r'.entries[..r.index + 1] == r.entries[..r.index + 1] &&
            r'.index == r.index + 1 && r'.Location() == to && r'.path == to
  {
  }

  /** Navigating twice to the same path is navigating once. */
  lemma NavigateIdempotent(r: Router, to: string)
    requires r.Valid()
    ensures Navigate(Navigate(r, to), to) == Navigate(r, to)
  {
  }

  /** After a navigation the rendered path is the location's path, and a
      history traversal keeps them in step. */
  lemma NavigationKeepsInSync(r: Router, to: string, delta: int)
    requires r.Valid() && r.InSync()
    ensures Navigate(r, to).InSync()
    ensures Traverse(r, delta).InSync()
  {
  }

  /** A navigation followed by Back returns to where it started. */
  lemma BackUndoesNavigate(r: Router, to: string)
    requires r.Valid() && r.InSync() && to != r.Location()
    ensures Traverse(Navigate(r, to), -1) == Router(r.entries[..r.index + 1] + [to], r.index, r.path)
  {
  }

  datatype Page = Landing | Upload | Chat

  /** `App`: which page a path renders. */
  function PageFor(path: string): (page: Page)
    ensures page == Upload <==> path == "/upload"
    ensures page == Chat <==> path == "/chat"
    ensures page == Landing <==> path != "/upload" && path != "/chat"
  {
    if path == "/upload" then Upload
    else if path == "/chat" then Chat
    else Landing
  }
}

=== FILE: text.dfy ===
/** String helpers shared by the back end (Python `str`) and the front end
    (JavaScript strings): whitespace stripping, splitting on and joining with
    a separator, ASCII lower-casing, substring search and decimal rendering. */
module Text {

  /** The paragraph separator used by the chunker and by the chat context. */
  const Sep: string := "\n\n"

  /** The ASCII whitespace characters; Python's `str.strip()` and JavaScript's
      `String.prototype.trim()` agree on these. */
  predicate IsSpace(c: char) {
    c == ' ' || c == '\t' || c == '\n' || c == '\r' || c == '\U{0B}' || c == '\U{0C}'
  }

  predicate AllSpace(s: string) {
    forall i :: 0 <= i < |s| ==> IsSpace(s[i])
  }

  /** Neither the first nor the last character is whitespace. */
  predicate NoOuterSpace(s: string) {
    s == [] || (!IsSpace(s[0]) && !IsSpace(s[|s| - 1]))
  }

  /** The number of whitespace characters `s` starts with. */
  function LeadingSpace(s: string): (n: nat)
    ensures n <= |s|
    ensures forall i :: 0 <= i < n ==> IsSpace(s[i])
    ensures n < |s| ==> !IsSpace(s[n])
  {
    if |s| > 0 && IsSpace(s[0]) then 1 + LeadingSpace(s[1..]) else 0
  }

  /** The number of whitespace characters `s` ends with. */
  function TrailingSpace(s: string): (n: nat)
    ensures n <= |s|
    ensures forall i :: |s| - n <= i < |s| ==> IsSpace(s[i])
    ensures n < |s| ==> !IsSpace(s[|s| - n - 1])
  {
    if |s| > 0 && IsSpace(s[|s| - 1]) then 1 + TrailingSpace(s[..|s| - 1]) else 0
  }

  /** JavaScript's `s.trimStart()`. */
  function TrimStart(s: string): (r: string)
    ensures |r| <= |s| && r == s[|s| - |r|..]
    ensures AllSpace(s[..|s| - |r|])
    ensures r == [] || !IsSpace(r[0])
  {
    var n := LeadingSpace(s);
    s[n..]
  }

  /** JavaScript's `s.trimEnd()`. */
  function TrimEnd(s: string): (r: string)
    ensures |r| <= |s| && r == s[..|r|]
    ensures AllSpace(s[|r|..])
    ensures r == [] || !IsSpace(r[|r| - 1])
  {
    var n := TrailingSpace(s);
    s[..|s| - n]
  }

  /** Python's `s.strip()` and JavaScript's `s.trim()`: `s` is the result with
      whitespace-only padding on both sides. */
  function Strip(s: string): (r: string)
    ensures NoOuterSpace(r)
    ensures |r| <= |s|
  {
    TrimEnd(TrimStart(s))
  }

  /** The strip of `s` is a slice of `s` with only whitespace on either side. */
  lemma StripIsPaddedSlice(s: string)
    ensures exists i, j :: 0 <= i <= j <= |s| && Strip(s) == s[i..j] && AllSpace(s[..i]) && AllSpace(s[j..])
  {
    var t := TrimStart(s);
    var r := TrimEnd(t);
    var i := |s| - |t|;
    assert r == s[i..i + |r|];
    assert s[i + |r|..] == t[|r|..];
  }

  lemma {:induction false} TrimStartPadding(w: string, t: string)
    requires AllSpace(w)
    requires t == [] || !IsSpace(t[0])
    ensures TrimStart(w + t) == t
    decreases |w|
  {
    if |w| > 0 {
      assert (w + t)[1..] == w[1..] + t;
      TrimStartPadding(w[1..], t);
    } else {
      assert w + t == t;
    }
  }

  lemma {:induction false} TrimEndPadding(t: string, w: string)
    requires AllSpace(w)
    requires t == [] || !IsSpace(t[|t| - 1])
    ensures TrimEnd(t + w) == t
    decreases |w|
  {
    if |w| > 0 {
      assert (t + w)[..|t + w| - 1] == t + w[..|w| - 1];
      TrimEndPadding(t, w[..|w| - 1]);
    } else {
      assert t + w == t;
    }
  }

  /** Stripping removes exactly whitespace padding: the padded text comes back. */
  lemma StripPadding(w1: string, x: string, w2: string)
    requires AllSpace(w1) && AllSpace(w2)
    requires NoOuterSpace(x)
    ensures Strip(w1 + x + w2) == x
  {
    if x == [] {
      assert AllSpace(w1 + w2);
      assert w1 + x + w2 == [] + (w1 + w2);
      TrimStartPadding(w1 + w2, []);
      assert TrimStart(w1 + x + w2) == [];
    } else {
      assert w1 + x + w2 == w1 + (x + w2);
      TrimStartPadding(w1, x + w2);
      TrimEndPadding(x, w2);
    }
  }

  lemma AllSpaceConcat(a: string, b: string)
    requires AllSpace(a) && AllSpace(b)
    ensures AllSpace(a + b)
  {
    forall i | 0 <= i < |a + b|
      ensures IsSpace((a + b)[i])
    {
      if i >= |a| {
        assert (a + b)[i] == b[i - |a|];
      }
    }
  }

  /** Whitespace added on either side of any text is stripped away with the
      text's own padding. */
  lemma StripAbsorbsPadding(w1: string, x: string, w2: string)
    requires AllSpace(w1) && AllSpace(w2)
    ensures Strip(w1 + x + w2) == Strip(x)
  {
    StripIsPaddedSlice(x);
    var i, j :| 0 <= i <= j <= |x| && Strip(x) == x[i..j] && AllSpace(x[..i]) && AllSpace(x[j..]);
    var front, r, back := x[..i], x[i..j], x[j..];
    SliceThree(x, i, j);
    Regroup(w1, front, r, back, w2);
    AllSpaceConcat(w1, front);
    AllSpaceConcat(back, w2);
    StripPadding(w1 + front, r, back + w2);
  }

  lemma SliceThree(x: string, i: int, j: int)
    requires 0 <= i <= j <= |x|
    ensures x == x[..i] + x[i..j] + x[j..]
  {
  }

  lemma Regroup(a: string, b: string, c: string, d: string, e: string)
    ensures a + (b + c + d) + e == (a + b) + c + (d + e)
  {
  }

  /** Stripping twice is stripping once. */
  lemma StripIdempotent(s: string)
    ensures Strip(Strip(s)) == Strip(s)
  {
    StripKeepsStripped(Strip(s));
  }

  /** A string without outer whitespace is its own strip. */
  lemma StripKeepsStripped(x: string)
    requires NoOuterSpace(x)
    ensures Strip(x) == x
  {
    NoPadding(x);
    StripPadding([], x, []);
  }

  lemma NoPadding(x: string)
    ensures [] + x + [] == x && AllSpace([])
  {
  }

  /** The strip of a string is empty exactly when the string is all whitespace. */
  lemma StripEmptyIffAllSpace(s: string)
    ensures Strip(s) == [] <==> AllSpace(s)
  {
    var n := LeadingSpace(s);
    if AllSpace(s) {
      assert n == |s|;
    } else {
      var k :| 0 <= k < |s| && !IsSpace(s[k]);
      assert n <= k;
      var t := TrimStart(s);
      assert t[0] == s[n];
      assert TrailingSpace(t) < |t|;
    }
  }

  /** A string ending in the paragraph separator strips to at most the length
      of what precedes the separator. */
  lemma StripDropsSeparator(x: string)
    ensures |Strip(x + Sep)| <= |x|
  {
    var s := x + Sep;
    var t := TrimStart(s);
    if |t| >= 2 {
      assert t[|t| - 1] == s[|s| - 1] == '\n';
      assert t[..|t| - 1][|t| - 2] == s[|s| - 2] == '\n';
      assert TrimEnd(t) == TrimEnd(t[..|t| - 1]);
      assert t[..|t| - 1][..|t| - 2] == t[..|t| - 2];
    }
  }

  /** Python's `s.split(sep)`: the pieces between the leftmost non-overlapping
      occurrences of `sep`, scanning from the left. */
  function Split(s: string, sep: string): (parts: seq<string>)
    requires sep != []
    ensures |parts| >= 1
    ensures parts[0] <= s
    decreases |s|
  {
    if |s| < |sep| then [s]
    else if s[..|sep|] == sep then [[]] + Split(s[|sep|..], sep)
    else
      var rest := Split(s[1..], sep);
      [[s[0]] + rest[0]] + rest[1..]
  }

  /** Python's `sep.join(parts)`. */
  function Join(parts: seq<string>, sep: string): string {
    if |parts| == 0 then []
    else if |parts| == 1 then parts[0]
    else parts[0] + sep + Join(parts[1..], sep)
  }

  /** Joining the pieces of a split with the same separator gives the text back. */
  lemma {:induction false} JoinSplit(s: string, sep: string)
    requires sep != []
    ensures Join(Split(s, sep), sep) == s
    decreases |s|
  {
    if |s| < |sep| {
    } else if s[..|sep|] == sep {
      var rest := Split(s[|sep|..], sep);
      JoinSplit(s[|sep|..], sep);
      assert Split(s, sep) == [[]] + rest;
      assert ([[]] + rest)[1..] == rest;
      assert s == sep + s[|sep|..];
    } else {
      var rest := Split(s[1..], sep);
      JoinSplit(s[1..], sep);
      assert Split(s, sep) == [[s[0]] + rest[0]] + rest[1..];
      JoinConsHead(s[0], rest, sep);
      assert s == [s[0]] + s[1..];
    }
  }

  /** Prepending a character to the first piece prepends it to the join. */
  lemma JoinConsHead(c: char, parts: seq<string>, sep: string)
    requires parts != []
    ensures Join([[c] + parts[0]] + parts[1..], sep) == [c] + Join(parts, sep)
  {
    var q := [[c] + parts[0]] + parts[1..];
    assert q[1..] == parts[1..];
    if |parts| > 1 {
      assert Join(q, sep) == q[0] + sep + Join(parts[1..], sep);
    }
  }

  /** `needle` occurs in `hay` (JavaScript `hay.includes(needle)`). */
  predicate Contains(hay: string, needle: string) {
    exists k :: 0 <= k <= |hay| - |needle| && OccursAt(hay, needle, k)
  }

  /** `needle` occurs in `hay` starting at index `k`. */
  predicate OccursAt(hay: string, needle: string, k: int) {
    0 <= k && k + |needle| <= |hay| && hay[k..k + |needle|] == needle
  }

  /** Python's leftmost rule for one split: the first piece runs up to the
      first occurrence of the separator, and the remaining pieces are the
      split of what follows that occurrence; with no occurrence there is one
      piece. */
  predicate Leftmost(s: string, sep: string)
    requires sep != []
  {
    var parts := Split(s, sep);
    (forall j :: 0 <= j < |parts[0]| ==> !OccursAt(s, sep, j)) &&
    (|parts| == 1 ==> parts[0] == s) &&
    (|parts| > 1 ==> OccursAt(s, sep, |parts[0]|) && parts[1..] == Split(s[|parts[0]| + |sep|..], sep))
  }

  /** `Split` follows the leftmost rule. */
  lemma {:induction false} SplitIsLeftmost(s: string, sep: string)
    requires sep != []
    ensures Leftmost(s, sep)
    decreases |s|
  {
    if |s| < |sep| {
    } else if s[..|sep|] == sep {
      assert Split(s, sep)[1..] == Split(s[|sep|..], sep);
    } else {
      SplitIsLeftmost(s[1..], sep);
      LeftmostStep(s, sep);
    }
  }

  /** The leftmost rule carries over from `s[1..]` to `s` when `s` does not
      start with the separator. */
  lemma LeftmostStep(s: string, sep: string)
    requires sep != [] && |s| >= |sep| && s[..|sep|] != sep
    requires Leftmost(s[1..], sep)
    ensures Leftmost(s, sep)
  {
    var parts, rest := Split(s, sep), Split(s[1..], sep);
    assert parts[0] == [s[0]] + rest[0] && parts[1..] == rest[1..];
    LeftmostHead(s, sep, parts[0], rest[0]);
    if |parts| > 1 {
      OccursShift(s, sep, |parts[0]|);
      assert s[1..][|rest[0]| + |sep|..] == s[|parts[0]| + |sep|..];
    } else {
      assert rest[0] == s[1..];
    }
  }

  /** No occurrence starts inside the first piece. */
  lemma LeftmostHead(s: string, sep: string, head: string, restHead: string)
    requires sep != [] && |s| >= |sep| && s[..|sep|] != sep
    requires head == [s[0]] + restHead
    requires forall j :: 0 <= j < |restHead| ==> !OccursAt(s[1..], sep, j)
    ensures forall j :: 0 <= j < |head| ==> !OccursAt(s, sep, j)
  {
    forall j | 0 <= j < |head|
      ensures !OccursAt(s, sep, j)
    {
      if j > 0 {
        OccursShift(s, sep, j);
      }
    }
  }

  /** Three newlines split on the paragraph separator: the separator is
      taken from the left, so the leftover newline starts the second piece. */
  lemma ThreeNewlinesSplit()
    ensures Split("\n\n\n", Sep) == ["", "\n"]
  {
    assert "\n\n\n"[..2] == Sep;
    assert "\n\n\n"[2..] == "\n";
  }

  /** An occurrence after the first character is an occurrence in the rest. */
  lemma OccursShift(s: string, sep: string, j: int)
    requires 1 <= j && |s| >= 1
    ensures OccursAt(s, sep, j) == OccursAt(s[1..], sep, j - 1)
  {
    if j + |sep| <= |s| {
      assert s[1..][j - 1..j - 1 + |sep|] == s[j..j + |sep|];
    }
  }

  /** No piece of a split contains the separator. */
  lemma {:induction false} SplitPiecesAvoidSeparator(s: string, sep: string)
    requires sep != []
    ensures forall p :: p in Split(s, sep) ==> !Contains(p, sep)
    decreases |s|
  {
    if |s| < |sep| {
      assert Split(s, sep) == [s];
    } else if s[..|sep|] == sep {
      SplitPiecesAvoidSeparator(s[|sep|..], sep);
    } else {
      var rest := Split(s[1..], sep);
      SplitPiecesAvoidSeparator(s[1..], sep);
      var head := [s[0]] + rest[0];
      assert !Contains(rest[0], sep) by { assert rest[0] in rest; }
      assert head <= s;
      if Contains(head, sep) {
        var k :| 0 <= k <= |head| - |sep| && OccursAt(head, sep, k);
        assert head[k..k + |sep|] == sep;
        if k > 0 {
          assert rest[0][k - 1..k - 1 + |sep|] == head[k..k + |sep|];
          assert OccursAt(rest[0], sep, k - 1);
        }
        assert false;
      }
      forall p | p in Split(s, sep)
        ensures !Contains(p, sep)
      {
        if p != head {
          assert p in rest[1..];
        }
      }
    }
  }

  /** Every piece of a whitespace-only text is whitespace only. */
  lemma {:induction false} SplitOfBlank(s: string, sep: string)
    requires sep != [] && AllSpace(s)
    ensures forall p :: p in Split(s, sep) ==> AllSpace(p)
    decreases |s|
  {
    if |s| < |sep| {
      assert Split(s, sep) == [s];
    } else if s[..|sep|] == sep {
      SplitOfBlank(s[|sep|..], sep);
    } else {
      var rest := Split(s[1..], sep);
      SplitOfBlank(s[1..], sep);
      assert rest[0] in rest;
      var head := [s[0]] + rest[0];
      assert AllSpace(head);
      forall p | p in Split(s, sep)
        ensures AllSpace(p)
      {
        if p != head {
          assert p in rest[1..];
        }
      }
    }
  }

  /** Whitespace-only pieces joined by a whitespace-only separator give
      whitespace only. */
  lemma {:induction false} JoinOfBlank(parts: seq<string>, sep: string)
    requires AllSpace(sep)
    requires forall i :: 0 <= i < |parts| ==> AllSpace(parts[i])
    ensures AllSpace(Join(parts, sep))
    decreases |parts|
  {
    if |parts| > 1 {
      JoinOfBlank(parts[1..], sep);
      AllSpaceConcat(parts[0], sep);
      AllSpaceConcat(parts[0] + sep, Join(parts[1..], sep));
    }
  }

  /** Conversely, a whitespace-only join has whitespace-only pieces. */
  lemma {:induction false} JoinBlankParts(parts: seq<string>, sep: string)
    requires AllSpace(Join(parts, sep))
    ensures forall i :: 0 <= i < |parts| ==> AllSpace(parts[i])
    decreases |parts|
  {
    if |parts| > 1 {
      var rest := Join(parts[1..], sep);
      var whole := parts[0] + sep + rest;
      forall i | 0 <= i < |rest|
        ensures IsSpace(rest[i])
      {
        assert rest[i] == whole[|parts[0]| + |sep| + i];
      }
      JoinBlankParts(parts[1..], sep);
      forall i | 0 <= i < |parts|
        ensures AllSpace(parts[i])
      {
        if i == 0 {
          assert forall j :: 0 <= j < |parts[0]| ==> parts[0][j] == whole[j];
        } else {
          assert parts[i] == parts[1..][i - 1];
        }
      }
    }
  }

  function LowerChar(c: char): char {
    if 'A' <= c <= 'Z' then (c as int + 32) as char else c
  }

  /** ASCII lower-casing (Python `str.lower()` restricted to A-Z). */
  function Lower(s: string): (r: string)
    ensures |r| == |s|
    ensures forall i :: 0 <= i < |s| ==> r[i] == LowerChar(s[i])
  {
    seq(|s|, i requires 0 <= i < |s| => LowerChar(s[i]))
  }

  function DigitChar(d: nat): char
    requires d < 10
  {
    "0123456789"[d]
  }

  /** The decimal rendering of a natural number, as Python `str(n)` and
      JavaScript template interpolation produce it. */
  function NatToString(n: nat): (r: string)
    ensures r != []
    ensures forall i :: 0 <= i < |r| ==> '0' <= r[i] <= '9'
    decreases n
  {
    if n < 10 then [DigitChar(n)] else NatToString(n / 10) + [DigitChar(n % 10)]
  }

  /** The value of a string of decimal digits. */
  function DigitsValue(s: string): nat
    requires forall i :: 0 <= i < |s| ==> '0' <= s[i] <= '9'
  {
    if s == [] then 0 else 10 * DigitsValue(s[..|s| - 1]) + (s[|s| - 1] as int - '0' as int)
  }

  /** Decimal rendering can be read back: no two numbers share a rendering. */
  lemma {:induction false} NatToStringRoundTrip(n: nat)
    ensures DigitsValue(NatToString(n)) == n
    decreases n
  {
    if n >= 10 {
      var s := NatToString(n);
      NatToStringRoundTrip(n / 10);
      assert s[..|s| - 1] == NatToString(n / 10);
    }
  }

  /** Decimal rendering of an integer, with a leading minus sign when negative. */
  function IntToString(n: int): (r: string)
    ensures r != []
    ensures n >= 0 <==> r[0] != '-'
  {
    if n >= 0 then NatToString(n) else "-" + NatToString(-n)
  }
}

=== FILE: upload_form.dfy ===
/** The upload form's logic: the extra metadata rows, the metadata object
    sent with the file, how a finished request is classified, and the form's
    state as its handlers and the request's callbacks change it. The request
    itself, progress percentages, timers and rendering are outside the model;
    what the request reports back is an event. */
module UploadForm {
  import opened Wrappers
  import opened Text
  import opened Json

  // ---------------------------------------------------------------------------
  // Extra metadata rows
  // ---------------------------------------------------------------------------

  /** One key/value row; `id` is a fresh identifier (a random UUID in the
      source). */
  datatype Row = Row(key: string, value: string, id: nat)

  /** The edits the row inputs make: replace the key or replace the value. */
  datatype RowPatch = SetKey(key: string) | SetValue(value: string)

  function BlankRow(id: nat): Row {
    Row("", "", id)
  }

  predicate DistinctIds(rows: seq<Row>) {
    forall i, j :: 0 <= i < j < |rows| ==> rows[i].id != rows[j].id
  }

  predicate HasId(rows: seq<Row>, id: nat) {
    exists i :: 0 <= i < |rows| && rows[i].id == id
  }

  /** `addExtra`: one blank row at the end. */
  function AddExtra(rows: seq<Row>, freshId: nat): (r: seq<Row>)
    ensures |r| == |rows| + 1 && r[..|rows|] == rows && r[|rows|] == BlankRow(freshId)
  {
    rows + [BlankRow(freshId)]
  }

  /** `removeExtra`: the rows whose id differs, in order. */
  function RemoveExtra(rows: seq<Row>, id: nat): (r: seq<Row>)
    ensures |r| <= |rows|
    ensures forall x :: x in r <==> x in rows && x.id != id
  {
    if rows == [] then []
    else
      var rest := RemoveExtra(rows[..|rows| - 1], id);
      var last := rows[|rows| - 1];
      assert rows == rows[..|rows| - 1] + [last];
      if last.id != id then rest + [last] else rest
  }

  function ApplyPatch(row: Row, patch: RowPatch): Row {
    match patch
    case SetKey(k) => row.(key := k)
    case SetValue(v) => row.(value := v)
  }

  /** `updateExtra`: patch the rows with the given id, leave the rest. */
  function UpdateExtra(rows: seq<Row>, id: nat, patch: RowPatch): (r: seq<Row>)
    ensures |r| == |rows|
    ensures forall i :: 0 <= i < |rows| ==> r[i].id == rows[i].id
    ensures forall i :: 0 <= i < |rows| && rows[i].id != id ==> r[i] == rows[i]
    ensures forall i :: 0 <= i < |rows| && rows[i].id == id ==> r[i] == ApplyPatch(rows[i], patch)
  {
    seq(|rows|, i requires 0 <= i < |rows| => if rows[i].id == id then ApplyPatch(rows[i], patch) else rows[i])
  }

  /** Removing keeps the relative order of the remaining rows: removing from a
      concatenation removes from each part. */
  lemma {:induction false} RemoveExtraAppend(a: seq<Row>, b: seq<Row>, id: nat)
    ensures RemoveExtra(a + b, id) == RemoveExtra(a, id) + RemoveExtra(b, id)
    decreases |b|
  {
    if b == [] {
      assert a + b == a;
    } else {
      var init := b[..|b| - 1];
      var last := b[|b| - 1];
      RemoveExtraAppend(a, init, id);
      assert (a + b)[..|a + b| - 1] == a + init;
      assert (a + b)[|a + b| - 1] == last;
      assert RemoveExtra(a + b, id) == RemoveExtra(a + init, id) + (if last.id != id then [last] else []);
      assert RemoveExtra(b, id) == RemoveExtra(init, id) + (if last.id != id then [last] else []);
    }
  }

  /** Every row edit keeps row ids distinct, given a fresh id for a new row. */
  lemma RowEditsKeepIdsDistinct(rows: seq<Row>, id: nat, freshId: nat, patch: RowPatch)
    requires DistinctIds(rows) && !HasId(rows, freshId)
    ensures DistinctIds(AddExtra(rows, freshId))
    ensures DistinctIds(RemoveExtra(rows, id))
    ensures DistinctIds(UpdateExtra(rows, id, patch))
  {
    var added := AddExtra(rows, freshId);
    forall i, j | 0 <= i < j < |added|
      ensures added[i].id != added[j].id
    {
      if j == |rows| {
        assert rows[i].id == added[i].id;
      }
    }
    RemoveKeepsDistinct(rows, id);
  }

  lemma {:induction false} RemoveKeepsDistinct(rows: seq<Row>, id: nat)
    requires DistinctIds(rows)
    ensures DistinctIds(RemoveExtra(rows, id))
    decreases |rows|
  {
    if rows != [] {
      var init := rows[..|rows| - 1];
      var last := rows[|rows| - 1];
      RemoveKeepsDistinct(init, id);
      var rest := RemoveExtra(init, id);
      if last.id != id {
        var r := rest + [last];
        forall i, j | 0 <= i < j < |r|
          ensures r[i].id != r[j].id
        {
          if j == |rest| {
            assert rest[i] in rest;
            var k :| 0 <= k < |init| && init[k] == rest[i];
            assert rows[k] == init[k];
          }
        }
      }
    }
  }

  // ---------------------------------------------------------------------------
  // The metadata object
  // ---------------------------------------------------------------------------

  /** A plain JavaScript object with string values: its own properties as
      assignments in the order they were made. JavaScript enumerates
      integer-like keys first, so this order is not the object's key order;
      only the last assignment to each key matters here. */
  type Entries = seq<(string, string)>

  function Lookup(entries: Entries, k: string): Option<string> {
    if entries == [] then None
    else if entries[|entries| - 1].0 == k then Some(entries[|entries| - 1].1)
    else Lookup(entries[..|entries| - 1], k)
  }

  predicate UniqueKeys(entries: Entries) {
    forall i, j :: 0 <= i < j < |entries| ==> entries[i].0 != entries[j].0
  }

  /** `obj[k] = v` for an ordinary key: overwrite in place, or append. */
  function Put(entries: Entries, k: string, v: string): (r: Entries)
    ensures |r| == |entries| || |r| == |entries| + 1
  {
    if entries == [] then [(k, v)]
    else
      var last := entries[|entries| - 1];
      if last.0 == k then entries[..|entries| - 1] + [(k, v)]
      else Put(entries[..|entries| - 1], k, v) + [last]
  }

  /** `obj[k] = v` on a plain object: assigning a string to `__proto__` goes
      to the prototype setter, which ignores it, so no property appears. */
  function Assign(entries: Entries, k: string, v: string): Entries {
    if k == "__proto__" then entries else Put(entries, k, v)
  }

  lemma {:induction false} PutLookup(entries: Entries, k: string, v: string, q: string)
    ensures Lookup(Put(entries, k, v), q) == if q == k then Some(v) else Lookup(entries, q)
    decreases |entries|
  {
    if entries != [] {
      var init := entries[..|entries| - 1];
      var last := entries[|entries| - 1];
      if last.0 == k {
        assert (init + [(k, v)])[..|init|] == init;
      } else {
        PutLookup(init, k, v, q);
        var p := Put(init, k, v);
        assert (p + [last])[..|p|] == p;
      }
    }
  }

  /** A row that contributes: both its trimmed key and trimmed value are
      non-empty. */
  predicate Contributes(row: Row) {
    Strip(row.key) != [] && Strip(row.value) != []
  }

  /** The entries before the extra rows: title, then author, each only when
      non-empty (and not trimmed). */
  function BaseEntries(title: string, author: string): Entries {
    (if title != [] then [("title", title)] else []) + (if author != [] then [("author", author)] else [])
  }

  /** One iteration of the `forEach` over the extra rows. */
  function RowStep(prev: Entries, row: Row): Entries {
    if Contributes(row) then Assign(prev, Strip(row.key), Strip(row.value)) else prev
  }

  /** The `forEach` over the extra rows. */
  function ApplyRows(base: Entries, rows: seq<Row>): Entries {
    if rows == [] then base
    else RowStep(ApplyRows(base, rows[..|rows| - 1]), rows[|rows| - 1])
  }

  /** The metadata object `uploadWithProgress` builds. */
  function AssembleMetadata(title: string, author: string, rows: seq<Row>): Entries {
    ApplyRows(BaseEntries(title, author), rows)
  }

  /** Row `row` assigns key `k`. */
  predicate Provides(row: Row, k: string) {
    Contributes(row) && Strip(row.key) == k
  }

  /** The index of the last row satisfying `p`, or -1 when none does. */
  function LastWhere(rows: seq<Row>, p: Row -> bool): (i: int)
    ensures -1 <= i < |rows|
    ensures i >= 0 ==> p(rows[i])
    ensures forall j :: i < j < |rows| ==> !p(rows[j])
  {
    if rows == [] then -1
    else if p(rows[|rows| - 1]) then |rows| - 1
    else
      var i := LastWhere(rows[..|rows| - 1], p);
      assert forall j :: i < j < |rows| - 1 ==> rows[..|rows| - 1][j] == rows[j];
      i
  }

  /** The value the last contributing row with trimmed key `k` gives it. */
  function LastContribution(rows: seq<Row>, k: string): (r: Option<string>)
    ensures r.Some? ==> exists i :: 0 <= i < |rows| && Provides(rows[i], k) && r.value == Strip(rows[i].value) &&
                                    forall j :: i < j < |rows| ==> !Provides(rows[j], k)
    ensures r.None? ==> forall i :: 0 <= i < |rows| ==> !Provides(rows[i], k)
  {
    var i := LastWhere(rows, row => Provides(row, k));
    if i >= 0 then Some(Strip(rows[i].value)) else None
  }

  /** Looking one row further back: the last row decides if it assigns `k`. */
  lemma LastContributionSnoc(rows: seq<Row>, k: string)
    requires rows != []
    ensures LastContribution(rows, k) ==
            if Provides(rows[|rows| - 1], k) then Some(Strip(rows[|rows| - 1].value))
            else LastContribution(rows[..|rows| - 1], k)
  {
  }

  function KeySet(entries: Entries): set<string> {
    set i | 0 <= i < |entries| :: entries[i].0
  }

  lemma KeySetSnoc(entries: Entries, x: (string, string))
    ensures KeySet(entries + [x]) == KeySet(entries) + {x.0}
  {
    var e := entries + [x];
    forall q | q in KeySet(e)
      ensures q in KeySet(entries) + {x.0}
    {
      var i :| 0 <= i < |e| && e[i].0 == q;
      if i < |entries| {
        assert entries[i] == e[i];
      }
    }
    forall q | q in KeySet(entries) + {x.0}
      ensures q in KeySet(e)
    {
      if q == x.0 {
        assert e[|entries|].0 == q;
      } else {
        var i :| 0 <= i < |entries| && entries[i].0 == q;
        assert e[i].0 == q;
      }
    }
  }

  lemma {:induction false} PutKeys(entries: Entries, k: string, v: string)
    requires UniqueKeys(entries)
    ensures UniqueKeys(Put(entries, k, v))
    ensures KeySet(Put(entries, k, v)) == KeySet(entries) + {k}
    decreases |entries|
  {
    if entries != [] {
      var init := entries[..|entries| - 1];
      var last := entries[|entries| - 1];
      assert entries == init + [last];
      KeySetSnoc(init, last);
      if last.0 == k {
        KeySetSnoc(init, (k, v));
      } else {
        PutKeys(init, k, v);
        var p := Put(init, k, v);
        KeySetSnoc(p, last);
        assert last.0 !in KeySet(init);
        forall i, j | 0 <= i < j < |p + [last]|
          ensures (p + [last])[i].0 != (p + [last])[j].0
        {
          if j == |p| {
            assert p[i].0 in KeySet(p);
          }
        }
      }
    } else {
      KeySetSnoc([], (k, v));
      assert [] + [(k, v)] == [(k, v)];
    }
  }

  lemma RowStepLookup(prev: Entries, row: Row, k: string)
    ensures Lookup(RowStep(prev, row), k) ==
            if Contributes(row) && Strip(row.key) == k && k != "__proto__" then Some(Strip(row.value))
            else Lookup(prev, k)
  {
    if Contributes(row) && Strip(row.key) != "__proto__" {
      PutLookup(prev, Strip(row.key), Strip(row.value), k);
    }
  }

  /** The fold as a lookup: a property named `k` holds the value of the last
      contributing row with that key, or else what the starting object held;
      `__proto__` rows never change anything. */
  lemma {:induction false} ApplyRowsLookup(base: Entries, rows: seq<Row>, k: string)
    ensures Lookup(ApplyRows(base, rows), k) ==
            if k == "__proto__" then Lookup(base, k)
            else match LastContribution(rows, k)
                 case Some(v) => Some(v)
                 case None => Lookup(base, k)
    decreases |rows|
  {
    if rows != [] {
      var init := rows[..|rows| - 1];
      var row := rows[|rows| - 1];
      ApplyRowsLookup(base, init, k);
      RowStepLookup(ApplyRows(base, init), row, k);
      LastContributionSnoc(rows, k);
    }
  }

  lemma {:induction false} ApplyRowsUnique(base: Entries, rows: seq<Row>)
    requires UniqueKeys(base)
    ensures UniqueKeys(ApplyRows(base, rows))
    decreases |rows|
  {
    if rows != [] {
      var init := rows[..|rows| - 1];
      var row := rows[|rows| - 1];
      ApplyRowsUnique(base, init);
      if Contributes(row) && Strip(row.key) != "__proto__" {
        PutKeys(ApplyRows(base, init), Strip(row.key), Strip(row.value));
      }
    }
  }

  lemma BaseLookup(title: string, author: string, k: string)
    ensures UniqueKeys(BaseEntries(title, author))
    ensures Lookup(BaseEntries(title, author), k) ==
            if k == "title" && title != [] then Some(title)
            else if k == "author" && author != [] then Some(author)
            else None
  {
    var base := BaseEntries(title, author);
    if title != [] && author != [] {
      assert base == [("title", title), ("author", author)];
      assert base[..1] == [("title", title)];
      assert base[..1][..0] == [];
      assert Lookup(base[..1], k) == if k == "title" then Some(title) else None;
    } else if title != [] {
      assert base == [("title", title)];
      assert base[..0] == [];
    } else if author != [] {
      assert base == [("author", author)];
      assert base[..0] == [];
    } else {
      assert base == [];
    }
  }

  /** What the backend receives for each key: a non-empty title or author as
      typed, overridden by the last extra row whose trimmed key matches, with
      trimmed values; no key occurs twice and `__proto__` never appears. */
  lemma MetadataLastRowWins(title: string, author: string, rows: seq<Row>, k: string)
    ensures UniqueKeys(AssembleMetadata(title, author, rows))
    ensures Lookup(AssembleMetadata(title, author, rows), k) ==
            if k == "__proto__" then None
            else match LastContribution(rows, k)
                 case Some(v) => Some(v)
                 case None =>
                   if k == "title" && title != [] then Some(title)
                   else if k == "author" && author != [] then Some(author)
                   else None
  {
    var base := BaseEntries(title, author);
    BaseLookup(title, author, k);
    ApplyRowsLookup(base, rows, k);
    ApplyRowsUnique(base, rows);
  }

  /** The form field `metadata` is attached only when the object has at least
      one property. */
  function MetadataField(meta: Entries): (r: Option<Entries>)
    ensures r.None? <==> meta == []
    ensures r.Some? ==> r.value == meta
  {
    if |meta| > 0 then Some(meta) else None
  }

  /** The field is left out exactly when title and author are empty and no
      extra row contributes a key other than `__proto__`. */
  lemma MetadataFieldOmittedIff(title: string, author: string, rows: seq<Row>)
    ensures MetadataField(AssembleMetadata(title, author, rows)).None? <==>
            title == [] && author == [] &&
            forall i :: 0 <= i < |rows| && Contributes(rows[i]) ==> Strip(rows[i].key) == "__proto__"
  {
    var meta := AssembleMetadata(title, author, rows);
    if meta == [] {
      MetadataLastRowWins(title, author, rows, "title");
      MetadataLastRowWins(title, author, rows, "author");
      forall i | 0 <= i < |rows| && Contributes(rows[i])
        ensures Strip(rows[i].key) == "__proto__"
      {
        var k := Strip(rows[i].key);
        MetadataLastRowWins(title, author, rows, k);
      }
    } else {
      var k := meta[|meta| - 1].0;
      MetadataLastRowWins(title, author, rows, k);
    }
  }

  /** A blank row contributes nothing, so adding one leaves the metadata as
      it was. */
  lemma AddedRowChangesNothing(title: string, author: string, rows: seq<Row>, freshId: nat)
    ensures AssembleMetadata(title, author, AddExtra(rows, freshId)) == AssembleMetadata(title, author, rows)
  {
    var r := AddExtra(rows, freshId);
    assert r[..|r| - 1] == rows;
    assert Strip(r[|r| - 1].key) == [];
  }

  // ---------------------------------------------------------------------------
  // Classifying the finished request
  // ---------------------------------------------------------------------------

  /** How the promise around the request settles. */
  datatype Settled = Resolved(value: Json) | Rejected(message: string)

  /** The media type whose presence in Content-Type makes the body JSON. */
  const JsonType := "application/json"

  const FailurePrefix := "Upload failed ("

  /** The rejection message: the status, then the body when there is one. */
  function FailureMessage(status: nat, body: string): (m: string)
    ensures |m| > |FailurePrefix| && m[..|FailurePrefix|] == FailurePrefix
    ensures body != [] ==> |m| > |body| + 2 && m[|m| - |body| - 2..] == ": " + body
    ensures OccursAt(m, NatToString(status) + ")", |FailurePrefix|)
    ensures |m| == |FailurePrefix| + |NatToString(status)| + 1 + (if body == [] then 0 else |body| + 2)
  {
    var code, tail := NatToString(status) + ")", BodySuffix(body);
    ThreeParts(FailurePrefix, code, tail);
    FailurePrefix + (code + tail)
  }

  /** Where the middle part of a three-part text sits. */
  lemma ThreeParts(p: string, x: string, t: string)
    ensures |p + (x + t)| == |p| + |x| + |t|
    ensures (p + (x + t))[..|p|] == p && OccursAt(p + (x + t), x, |p|)
    ensures (p + (x + t))[|p + (x + t)| - |t|..] == t
  {
    assert (p + (x + t))[|p|..|p| + |x|] == x;
  }

  /** The body as the rejection message appends it. */
  function BodySuffix(body: string): (r: string)
    ensures body == [] ==> r == []
    ensures body != [] ==> |r| == |body| + 2 && r[2..] == body
  {
    if body != [] then ": " + body else ""
  }

  /** The DONE handler. `contentType` is the Content-Type header (absent
      reads as empty); `parsed` is what `JSON.parse` makes of the body, with
      `None` when it throws. */
  function ClassifyResponse(status: nat, contentType: Option<string>, body: string, parsed: Option<Json>): (r: Settled)
    ensures r.Resolved? <==> 200 <= status < 300
    ensures r.Rejected? ==> r.message == FailureMessage(status, body)
    ensures r.Resolved? && !Contains(contentType.GetOr(""), JsonType) ==> r.value == JString(body)
    ensures r.Resolved? && Contains(contentType.GetOr(""), JsonType) && parsed.Some? ==> r.value == parsed.value
    ensures r.Resolved? && Contains(contentType.GetOr(""), JsonType) && parsed.None? ==>
              r.value == JObject(map["raw" := JString(body)])
  {
    var ct := contentType.GetOr("");
    if 200 <= status < 300 then
      if Contains(ct, JsonType) then
        match parsed
        case Some(data) => Resolved(data)
        case None => Resolved(JObject(map["raw" := JString(body)]))
      else Resolved(JString(body))
    else Rejected(FailureMessage(status, body))
  }

  lemma PrefixCancels(p: string, x: string, y: string)
    requires p + x == p + y
    ensures x == y
  {
    assert x == (p + x)[|p|..];
  }

  lemma ParenAt(d: string, t: string)
    ensures (d + ")" + t)[|d|] == ')'
  {
  }

  /** A run of digits closed by `)` is delimited by that parenthesis. */
  lemma DigitsEndAtParen(d1: string, t1: string, d2: string, t2: string)
    requires forall i :: 0 <= i < |d1| ==> '0' <= d1[i] <= '9'
    requires forall i :: 0 <= i < |d2| ==> '0' <= d2[i] <= '9'
    requires d1 + ")" + t1 == d2 + ")" + t2
    ensures d1 == d2 && t1 == t2
  {
    var x := d1 + ")" + t1;
    if |d1| < |d2| {
      ParenAt(d1, t1);
      assert false;
    } else if |d2| < |d1| {
      ParenAt(d2, t2);
      assert false;
    } else {
      assert d1 == x[..|d1|] == d2;
      assert t1 == x[|d1| + 1..] == t2;
    }
  }

  /** The rejection message can be read back: it determines both the status
      and the body. */
  lemma FailureMessageInjective(s1: nat, b1: string, s2: nat, b2: string)
    requires FailureMessage(s1, b1) == FailureMessage(s2, b2)
    ensures s1 == s2 && b1 == b2
  {
    var d1, d2 := NatToString(s1), NatToString(s2);
    var t1, t2 := BodySuffix(b1), BodySuffix(b2);
    PrefixCancels(FailurePrefix, d1 + ")" + t1, d2 + ")" + t2);
    DigitsEndAtParen(d1, t1, d2, t2);
    NatToStringRoundTrip(s1);
    NatToStringRoundTrip(s2);
  }

  /** A rejection message is never empty, so the handler's fallback text
      "Upload failed." is never shown. */
  lemma RejectionNeverEmpty(status: nat, contentType: Option<string>, body: string, parsed: Option<Json>)
    ensures ClassifyResponse(status, contentType, body, parsed).Rejected? ==>
            ClassifyResponse(status, contentType, body, parsed).message != []
  {
  }

  // ---------------------------------------------------------------------------
  // The form's state
  // ---------------------------------------------------------------------------

  /** The alert under the form: its type ("", "success" or "error") and text. */
  datatype StatusKind = Plain | Succeeded | Failed
  datatype Status = Status(kind: StatusKind, message: string)

  const ClearedStatus := Status(Plain, "")
  const NoFileMessage := "Please select a file first."
  const CanceledMessage := "Upload canceled."
  const FallbackMessage := "Upload failed."

  /** The request: XMLHttpRequest sent and not yet DONE, or no request in
      flight (never started, answered, or aborted). */
  datatype Transfer = Idle | InFlight

  /** What one submission sends: the chosen file and the `metadata` field. */
  datatype Request = Request(file: nat, metadata: Option<Entries>)

  /** Everything the form's handlers read and write. A chosen file is an
      opaque reference; `abortArmed` says whether the abort handle holds a
      function; `sent` lists the requests made; `notified` lists the values
      handed to `onSuccess`, when the page supplied one. */
  datatype Form = Form(
    file: Option<nat>,
    title: string,
    author: string,
    extra: seq<Row>,
    progress: int,
    status: Status,
    response: Option<Json>,
    submitting: bool,
    abortArmed: bool,
    transfer: Transfer,
    sent: seq<Request>,
    notified: seq<Json>,
    hasOnSuccess: bool)

  function InitialForm(firstRowId: nat, hasOnSuccess: bool): Form {
    Form(None, "", "", [BlankRow(firstRowId)], 0, ClearedStatus, None, false, false, Idle, [], [], hasOnSuccess)
  }

  /** The submit button is enabled only with a file chosen and no upload
      running. */
  predicate CanSubmit(f: Form) {
    f.file.Some? && !f.submitting
  }

  /** The user's actions and the request's callbacks. `ServerDone` is the
      response arriving (the DONE state change); `parsed` is what
      `JSON.parse` makes of the body. Each event also runs the promise
      continuations it triggers, since those run before the next event. */
  datatype Event =
    | ChooseFile(chosen: nat)
    | EditTitle(title: string)
    | EditAuthor(author: string)
    | AddRow(freshId: nat)
    | RemoveRow(id: nat)
    | EditRow(id: nat, patch: RowPatch)
    | ResetForm(freshId: nat)
    | Submit
    | UploadProgress(pct: int)
    | ServerDone(status: nat, contentType: Option<string>, body: string, parsed: Option<Json>)
    | Cancel

  /** Which events the page can deliver: the submit button is disabled unless
      `CanSubmit`, the Cancel button is shown only while submitting, progress
      and the response come only from a request in flight, and new rows get
      fresh ids. */
  predicate Offered(f: Form, e: Event) {
    match e
    case AddRow(id) => !HasId(f.extra, id)
    case ResetForm(_) => true
    case Submit => CanSubmit(f)
    case UploadProgress(pct) => f.transfer == InFlight && 0 <= pct <= 100
    case ServerDone(_, _, _, _) => f.transfer == InFlight
    case Cancel => f.submitting
    case _ => true
  }

  /** The success banner, interpolating whatever `res.chunks_uploaded` is. */
  function SuccessMessage(chunks: JsValue): string {
    SuccessLead + Display(chunks) + SuccessTail
  }

  const SuccessLead := "Document uploaded successfully! Processed "
  const SuccessTail := " text chunks and stored in your knowledge base."

  /** The code after `await`: it runs once the promise settles. */
  function AfterSettled(f: Form, outcome: Settled): (g: Form)
    ensures !g.submitting && g.transfer == f.transfer && g.abortArmed == f.abortArmed
    ensures g.status.kind == Succeeded <==> outcome.Resolved? && outcome.value != JNull
    ensures g.status.kind == Failed ==> g.status.message != []
    ensures g.progress == 100 || g.progress == f.progress
  {
    var g := match outcome
      case Resolved(res) =>
        (match Property(res, "chunks_uploaded")
         case Failure(typeError) => f.(status := Status(Failed, typeError))
         case Success(chunks) =>
           f.(status := Status(Succeeded, SuccessMessage(chunks)), response := Some(res), progress := 100,
              notified := if f.hasOnSuccess then f.notified + [res] else f.notified))
      case Rejected(message) =>
        f.(status := Status(Failed, if message != [] then message else FallbackMessage));
    g.(submitting := false)
  }

  /** `handleSubmit` up to the `await`: without a file it only sets the error;
      otherwise it resets progress, status and response, arms the abort
      handle and sends the request. */
  function StartUpload(f: Form): (g: Form)
    ensures f.file.None? ==> g == f.(status := Status(Failed, NoFileMessage))
    ensures f.file.Some? ==> g.submitting && g.transfer == InFlight && g.abortArmed && g.progress == 0 &&
                             g.status == ClearedStatus && g.response.None? &&
                             g.sent == f.sent + [Request(f.file.value, MetadataField(AssembleMetadata(f.title, f.author, f.extra)))]
  {
    match f.file
    case None => f.(status := Status(Failed, NoFileMessage))
    case Some(chosen) =>
      var meta := AssembleMetadata(f.title, f.author, f.extra);
      f.(submitting := true, progress := 0, status := ClearedStatus, response := None,
         abortArmed := true, transfer := InFlight, sent := f.sent + [Request(chosen, MetadataField(meta))])
  }

  /** One event, as the component's code handles it. Aborting a request in
      flight makes XMLHttpRequest report DONE with status 0 and an empty body
      before `abort()` returns; the promise is rejected then and its
      continuation runs after `cancelUpload` has finished. */
  function Step(f: Form, e: Event): Form {
    match e
    case ChooseFile(chosen) => f.(file := Some(chosen))
    case EditTitle(t) => f.(title := t)
    case EditAuthor(a) => f.(author := a)
    case AddRow(id) => f.(extra := AddExtra(f.extra, id))
    case RemoveRow(id) => f.(extra := RemoveExtra(f.extra, id))
    case EditRow(id, patch) => f.(extra := UpdateExtra(f.extra, id, patch))
    case ResetForm(id) =>
      f.(file := None, title := "", author := "", extra := [BlankRow(id)], progress := 0,
         status := ClearedStatus, response := None)
    case Submit => StartUpload(f)
    case UploadProgress(pct) => f.(progress := pct)
    case ServerDone(code, ct, body, parsed) => Respond(f, code, ct, body, parsed)
    case Cancel => CancelUpload(f)
  }

  /** The response arriving: the DONE handler settles the promise and the
      code after `await` runs. */
  function Respond(f: Form, code: nat, ct: Option<string>, body: string, parsed: Option<Json>): Form {
    AfterSettled(f.(transfer := Idle), ClassifyResponse(code, ct, body, parsed))
  }

  /** `cancelUpload`, followed by the continuation of the request it
      aborted, if one was in flight. */
  function CancelUpload(f: Form): Form {
    if !f.abortArmed then f
    else if f.transfer == InFlight then
      var aborted := ClassifyResponse(0, None, "", None);
      var canceled := f.(transfer := Idle, submitting := false, status := Status(Failed, CanceledMessage));
      AfterSettled(canceled, aborted)
    else f.(submitting := false, status := Status(Failed, CanceledMessage))
  }

  /** The same handlers with cancellation made final: the continuation of an
      aborted request is discarded, so "Upload canceled." stays. */
  function StepCorrected(f: Form, e: Event): (g: Form)
    ensures e != Cancel ==> g == Step(f, e)
  {
    match e
    case Cancel =>
      if !f.abortArmed then f
      else f.(transfer := Idle, submitting := false, status := Status(Failed, CanceledMessage))
    case _ => Step(f, e)
  }

  // ---------------------------------------------------------------------------
  // Properties of the form
  // ---------------------------------------------------------------------------

  /** What holds in every state the page can reach: a submission is running
      exactly while a request is in flight, a request in flight can be
      aborted, progress is a percentage, and row ids are distinct. */
  predicate Consistent(f: Form) {
    (f.submitting <==> f.transfer == InFlight) &&
    (f.transfer == InFlight ==> f.abortArmed) &&
    0 <= f.progress <= 100 &&
    DistinctIds(f.extra)
  }

  lemma InitialConsistent(firstRowId: nat, hasOnSuccess: bool)
    ensures Consistent(InitialForm(firstRowId, hasOnSuccess))
    ensures !CanSubmit(InitialForm(firstRowId, hasOnSuccess))
  {
  }

  /** Every offered event keeps the form consistent. */
  lemma StepKeepsConsistent(f: Form, e: Event)
    requires Consistent(f) && Offered(f, e)
    ensures Consistent(Step(f, e))
    ensures Consistent(StepCorrected(f, e))
  {
    match e
    case AddRow(id) => RowEditsKeepIdsDistinct(f.extra, 0, id, SetKey(""));
    case RemoveRow(id) => RemoveKeepsDistinct(f.extra, id);
    case EditRow(id, patch) =>
      var rows := UpdateExtra(f.extra, id, patch);
      assert forall i :: 0 <= i < |rows| ==> rows[i].id == f.extra[i].id;
    case _ =>
  }

  /** The abort handle, once set, is never cleared. */
  lemma AbortHandleStaysArmed(f: Form, e: Event)
    requires f.abortArmed
    ensures Step(f, e).abortArmed && StepCorrected(f, e).abortArmed
  {
  }

  /** While an upload runs the submit button is disabled, so no second
      request can start. */
  lemma NoSecondUpload(f: Form)
    requires Consistent(f) && f.transfer == InFlight
    ensures !Offered(f, Submit)
  {
  }

  /** Resetting clears the inputs and leaves exactly one blank row, but does
      not touch a running upload. */
  lemma ResetRestoresBlankRow(f: Form, freshId: nat)
    ensures var g := Step(f, ResetForm(freshId));
            g.extra == [BlankRow(freshId)] && g.file.None? && g.title == [] && g.author == [] &&
            AssembleMetadata(g.title, g.author, g.extra) == [] &&
            g.submitting == f.submitting && g.transfer == f.transfer
  {
    ResetStep(f, freshId);
    BlankRowAssemblesNothing(freshId);
  }

  lemma ResetStep(f: Form, id: nat)
    ensures Step(f, ResetForm(id)) ==
              f.(file := None, title := "", author := "", extra := [BlankRow(id)], progress := 0,
                 status := ClearedStatus, response := None)
  {
  }

  /** A single blank row with empty title and author assembles no metadata. */
  lemma BlankRowAssemblesNothing(id: nat)
    ensures AssembleMetadata("", "", [BlankRow(id)]) == []
  {
    AddedRowChangesNothing("", "", [], id);
    assert AddExtra([], id) == [BlankRow(id)];
    assert AssembleMetadata("", "", []) == [];
  }

  /** Submitting with no file only reports the missing file. */
  lemma SubmitWithoutFile(f: Form)
    requires f.file.None?
    ensures Step(f, Submit) == f.(status := Status(Failed, NoFileMessage))
    ensures !Offered(f, Submit)
  {
  }

  lemma JsonTypeIsJson()
    ensures Contains(JsonType, JsonType)
  {
    assert OccursAt(JsonType, JsonType, 0);
  }

  /** A 2xx JSON answer carrying `chunks_uploaded` shows the count, fills
      the progress bar, keeps the answer and hands it to `onSuccess`. */
  lemma SuccessfulUpload(f: Form, code: nat, body: string, fields: map<string, Json>)
    requires Consistent(f) && f.transfer == InFlight
    requires 200 <= code < 300 && "chunks_uploaded" in fields
    ensures var g := Step(f, ServerDone(code, Some(JsonType), body, Some(JObject(fields))));
            g.status == Status(Succeeded, SuccessMessage(Value(fields["chunks_uploaded"]))) &&
            g.progress == 100 && g.response == Some(JObject(fields)) && !g.submitting &&
            g.notified == (if f.hasOnSuccess then f.notified + [JObject(fields)] else f.notified) &&
            Consistent(g)
  {
    JsonTypeIsJson();
    assert ClassifyResponse(code, Some(JsonType), body, Some(JObject(fields))) == Resolved(JObject(fields));
    SettledWithCount(f.(transfer := Idle), fields);
  }

  lemma SettledWithCount(f: Form, fields: map<string, Json>)
    requires "chunks_uploaded" in fields
    ensures AfterSettled(f, Resolved(JObject(fields))) ==
            f.(status := Status(Succeeded, SuccessMessage(Value(fields["chunks_uploaded"]))),
               response := Some(JObject(fields)), progress := 100, submitting := false,
               notified := if f.hasOnSuccess then f.notified + [JObject(fields)] else f.notified)
  {
  }

  /** A 2xx answer that is not labelled JSON (no Content-Type, or one that
      does not contain `application/json`) resolves to its text, and the
      banner reports "undefined" chunks. */
  lemma PlainTextSuccessSaysUndefined(f: Form, code: nat, ct: Option<string>, body: string, parsed: Option<Json>)
    requires 200 <= code < 300
    requires !Contains(ct.GetOr(""), JsonType)
    ensures Step(f, ServerDone(code, ct, body, parsed)).status == Status(Succeeded, SuccessMessage(Undefined))
  {
  }


  /** A 2xx JSON answer whose body is `null` reaches the success code, whose
      property read throws; the TypeError's text becomes the error banner
      and progress is left where it was. */
  lemma NullAnswerIsTypeError(f: Form, code: nat, body: string)
    requires 200 <= code < 300
    ensures var g := Step(f, ServerDone(code, Some(JsonType), body, Some(JNull)));
            g.status == Status(Failed, NullReadError("chunks_uploaded")) &&
            g.progress == f.progress && g.response == f.response
  {
    JsonTypeIsJson();
    assert ClassifyResponse(code, Some(JsonType), body, Some(JNull)) == Resolved(JNull);
  }

  /** Any other status shows the rejection message, which names the status. */
  lemma FailedUploadShowsStatus(f: Form, code: nat, ct: Option<string>, body: string, parsed: Option<Json>)
    requires !(200 <= code < 300)
    ensures var g := Step(f, ServerDone(code, ct, body, parsed));
            g.status == Status(Failed, FailureMessage(code, body)) && !g.submitting &&
            g.progress == f.progress && g.response == f.response
  {
  }

  /** As written: cancelling a running upload ends with the error
      "Upload failed (0)", not "Upload canceled.", because the aborted
      request's rejection is handled after the cancel handler's own update. */
  lemma CancelIsOverwritten(f: Form)
    requires Consistent(f) && f.transfer == InFlight
    ensures Step(f, Cancel).status == Status(Failed, "Upload failed (0)")
    ensures Step(f, Cancel).status.message != CanceledMessage
  {
    assert NatToString(0) == "0";
  }

  /** Corrected: cancelling a running upload shows "Upload canceled.", and no
      response can arrive for the aborted request afterwards. */
  lemma CorrectedCancelIsFinal(f: Form)
    requires Consistent(f) && f.transfer == InFlight
    ensures StepCorrected(f, Cancel).status == Status(Failed, CanceledMessage)
    ensures !StepCorrected(f, Cancel).submitting
    ensures forall code, ct, body, parsed :: !Offered(StepCorrected(f, Cancel), ServerDone(code, ct, body, parsed))
  {
  }
}

=== FILE: upload_router.dfy ===
/** The `/upload` endpoint's decisions: which extension the temporary file
    gets, which chunks are stored, what metadata goes with them, and how every
    failure is reported. Reading the upload, the temporary file, JSON parsing
    and the vector store are oracles. */
module UploadRouter {
  import opened Wrappers
  import opened Text
  import opened Json
  import opened DocumentParser

  // ---------------------------------------------------------------------------
  // Choosing the extension
  // ---------------------------------------------------------------------------

  const DocxMime: string := "application/vnd.openxmlformats-officedocument.wordprocessingml.document"

  /** The MIME-type table: the three types the parser reads, nothing else. */
  function MimeToFormat(contentType: string): (f: Option<Format>)
    ensures f == Some(Pdf) <==> contentType == "application/pdf"
    ensures f == Some(Docx) <==> contentType == DocxMime
    ensures f == Some(Txt) <==> contentType == "text/plain"
  {
    if contentType == "application/pdf" then Some(Pdf)
    else if contentType == DocxMime then Some(Docx)
    else if contentType == "text/plain" then Some(Txt)
    else None
  }

  /** A filename whose lower-cased suffix names a readable format. The empty
      filename stands for both a missing and an empty one. */
  predicate HasRecognisedSuffix(filename: string) {
    filename != [] && IsSupported(Lower(Suffix(filename)))
  }

  /** `get_file_extension`: the filename's suffix when it is one the parser
      reads, else the MIME table's entry, else `.txt`. */
  function GetFileExtension(filename: string, contentType: string): (ext: string)
    ensures IsSupported(ext)
    ensures HasRecognisedSuffix(filename) ==> ext == Lower(Suffix(filename))
    ensures !HasRecognisedSuffix(filename) ==> ext == ExtensionOf(MimeToFormat(contentType).GetOr(Txt))
  {
    if filename != [] && IsSupported(Lower(Suffix(filename))) then Lower(Suffix(filename))
    else
      match MimeToFormat(contentType)
      case Some(f) => ExtensionOf(f)
      case None => ".txt"
  }

  /** A recognised suffix decides, whatever the content type says. */
  lemma SuffixTakesPrecedence(filename: string, ct1: string, ct2: string)
    requires HasRecognisedSuffix(filename)
    ensures GetFileExtension(filename, ct1) == GetFileExtension(filename, ct2)
  {
  }

  /** Without a recognised suffix, the content type decides, and any type
      outside the table, such as `application/msword`, gives `.txt`. */
  lemma UnmappedMimeGivesText(filename: string, contentType: string)
    requires !HasRecognisedSuffix(filename)
    requires contentType != "application/pdf" && contentType != DocxMime
    ensures GetFileExtension(filename, contentType) == ".txt"
  {
  }

  /** A legacy Word upload named without a readable suffix is treated as text. */
  lemma MsWordIsText(filename: string)
    requires !HasRecognisedSuffix(filename)
    ensures GetFileExtension(filename, "application/msword") == ".txt"
  {
    UnmappedMimeGivesText(filename, "application/msword");
  }

  // ---------------------------------------------------------------------------
  // Filtering chunks
  // ---------------------------------------------------------------------------

  /** A chunk worth storing: non-empty, and not whitespace only. */
  predicate Storable(chunk: string) {
    chunk != [] && Strip(chunk) != []
  }

  /** The chunks satisfying `keep`, in their original order. */
  function Filter(chunks: seq<string>, keep: string -> bool): (kept: seq<string>)
    ensures |kept| <= |chunks|
  {
    if chunks == [] then []
    else
      var rest := Filter(chunks[..|chunks| - 1], keep);
      var c := chunks[|chunks| - 1];
      if keep(c) then rest + [c] else rest
  }

  /** The kept chunks are exactly the ones satisfying `keep`. */
  lemma {:induction false} FilterMembers(chunks: seq<string>, keep: string -> bool)
    ensures forall c :: c in Filter(chunks, keep) <==> c in chunks && keep(c)
    decreases |chunks|
  {
    if chunks != [] {
      var init := chunks[..|chunks| - 1];
      FilterMembers(init, keep);
      assert chunks == init + [chunks[|chunks| - 1]];
    }
  }

  /** When no chunk satisfies `keep`, nothing is kept. */
  lemma {:induction false} FilterNothingKept(chunks: seq<string>, keep: string -> bool)
    requires forall c :: c in chunks ==> !keep(c)
    ensures Filter(chunks, keep) == []
    decreases |chunks|
  {
    if chunks != [] {
      var init := chunks[..|chunks| - 1];
      assert forall c :: c in init ==> c in chunks;
      FilterNothingKept(init, keep);
      assert chunks[|chunks| - 1] in chunks;
    }
  }

  /** Filtering works chunk by chunk: the kept chunks of a concatenation are
      the kept chunks of each part, in order. */
  lemma {:induction false} FilterAppend(a: seq<string>, b: seq<string>, keep: string -> bool)
    ensures Filter(a + b, keep) == Filter(a, keep) + Filter(b, keep)
    decreases |b|
  {
    if b == [] {
      assert a + b == a;
    } else {
      var init := b[..|b| - 1];
      var c := b[|b| - 1];
      var tail := if keep(c) then [c] else [];
      FilterAppend(a, init, keep);
      SnocSlices(a, b);
      FilterSnoc(a + init, c, keep);
      FilterSnoc(init, c, keep);
      var fa, fi := Filter(a, keep), Filter(init, keep);
      assert fa + fi + tail == fa + (fi + tail);
    }
  }

  lemma SnocSlices(a: seq<string>, b: seq<string>)
    requires b != []
    ensures b == b[..|b| - 1] + [b[|b| - 1]]
    ensures a + b == (a + b[..|b| - 1]) + [b[|b| - 1]]
  {
  }

  /** One more chunk at the end is kept or dropped on its own. */
  lemma FilterSnoc(s: seq<string>, c: string, keep: string -> bool)
    ensures Filter(s + [c], keep) == Filter(s, keep) + if keep(c) then [c] else []
  {
    assert (s + [c])[..|s|] == s;
  }

  /** The comprehension that drops empty chunks: exactly the storable chunks,
      in their original order. */
  function FilterChunks(chunks: seq<string>): (kept: seq<string>)
    ensures |kept| <= |chunks|
  {
    Filter(chunks, Storable)
  }

  /** A chunk is stored exactly when it is storable, and the filter keeps
      the order: filtering a concatenation filters each part. */
  lemma FilterChunksSpec(a: seq<string>, b: seq<string>)
    ensures forall c :: c in FilterChunks(a) <==> c in a && Storable(c)
    ensures FilterChunks(a + b) == FilterChunks(a) + FilterChunks(b)
  {
    FilterMembers(a, Storable);
    FilterAppend(a, b, Storable);
  }

  /** On the chunker's output, which has no outer whitespace, filtering drops
      exactly the empty chunks. */
  lemma FilterDropsOnlyEmpty(chunks: seq<string>)
    requires forall k :: 0 <= k < |chunks| ==> NoOuterSpace(chunks[k])
    ensures forall c :: c in FilterChunks(chunks) <==> c in chunks && c != []
  {
    FilterMembers(chunks, Storable);
    forall c | c in chunks && c != []
      ensures Storable(c)
    {
      var k :| 0 <= k < |chunks| && chunks[k] == c;
      StripKeepsStripped(c);
    }
  }

  // ---------------------------------------------------------------------------
  // Metadata
  // ---------------------------------------------------------------------------

  const NoDescription: string := "No description provided"
  const NoDescriptionInvalidJson: string := "No description provided (invalid JSON)"

  /** The metadata used when none usable was sent: the filename (or
      `unknown_file`) as title, `unknown` as author, and a description saying
      whether the sent metadata was unparsable. */
  function DefaultMetadata(filename: string, invalidJson: bool): (m: Json)
    ensures m.JObject? && m.fields.Keys == {"title", "author", "description"}
    ensures m.fields["title"] == JString(if filename != [] then filename else "unknown_file")
    ensures m.fields["author"] == JString("unknown")
    ensures m.fields["description"] == JString(if invalidJson then NoDescriptionInvalidJson else NoDescription)
  {
    JObject(map[
      "title" := JString(if filename != [] then filename else "unknown_file"),
      "author" := JString("unknown"),
      "description" := JString(if invalidJson then NoDescriptionInvalidJson else NoDescription)])
  }

  /** The metadata the handler stores: the parsed form field when it is
      present, not blank, and valid JSON (of any shape); otherwise defaults.
      `parseJson` is `json.loads`, `None` meaning `JSONDecodeError`. */
  function ResolveMetadata(field: Option<string>, filename: string, parseJson: string -> Option<Json>): (m: Json)
    ensures field.None? ==> m == DefaultMetadata(filename, false)
    ensures field.Some? && AllSpace(field.value) ==> m == DefaultMetadata(filename, false)
    ensures field.Some? && !AllSpace(field.value) ==>
              m == (match parseJson(field.value)
                    case Some(j) => j
                    case None => DefaultMetadata(filename, true))
  {
    match field
    case None => DefaultMetadata(filename, false)
    case Some(text) =>
      StripEmptyIffAllSpace(text);
      if text != [] && Strip(text) != [] then
        match parseJson(text)
        case Some(j) => j
        case None => DefaultMetadata(filename, true)
      else DefaultMetadata(filename, false)
  }

  // ---------------------------------------------------------------------------
  // The handler
  // ---------------------------------------------------------------------------

  /** The endpoint's answer: the stored-chunk count, or an HTTP error. */
  datatype UploadResponse = Uploaded(chunksUploaded: nat) | HttpError(status: int, detail: string)

  const ErrorPrefix: string := "Error processing file: "

  /** `str()` of the 422 `HTTPException` raised when no chunk is left, which
      the generic handler then wraps. */
  const NoChunksText: string := "422: No valid text chunks could be created from the file"

  /** The chunks the handler stores for an extracted text. */
  function StoredChunks(text: string): seq<string> {
    FilterChunks(Chunks(Paragraphs(text), DefaultMaxTokens))
  }

  /** Everything the handler consults from the outside world: the upload's
      name, content type and metadata field; the temporary file's directory,
      generated name and content; the readers; the JSON parser; and the store,
      which gets the chunks and the metadata. */
  datatype Env = Env(
    filename: string,
    contentType: string,
    metadataField: Option<string>,
    tempDir: string,
    tempName: string,
    probe: FileProbe,
    read: Format -> Result<string, string>,
    parseJson: string -> Option<Json>,
    store: (seq<string>, Json) -> Outcome<string>)

  /** The temporary file's path: the generated name with the chosen extension. */
  function TempFilePath(env: Env): string {
    TempPath(env.tempDir, env.tempName, GetFileExtension(env.filename, env.contentType))
  }

  /** `upload_file`: choose the extension, extract, chunk, filter, resolve
      metadata, store, and report the count; any exception, including the
      handler's own 422, becomes a 500 whose detail carries its text. */
  function UploadFile(env: Env): (r: UploadResponse)
    ensures r.HttpError? ==> r.status == 500 && ErrorPrefix <= r.detail
    ensures r.Uploaded? ==> (
              ExtractText(TempFilePath(env), env.probe, env.read).Success? &&
              var chunks := StoredChunks(ExtractText(TempFilePath(env), env.probe, env.read).value);
              r.chunksUploaded == |chunks| >= 1 &&
              env.store(chunks, ResolveMetadata(env.metadataField, env.filename, env.parseJson)) == Pass)
    ensures var x := ExtractText(TempFilePath(env), env.probe, env.read);
            x.Failure? ==> r == HttpError(500, ErrorPrefix + x.error)
    ensures var x := ExtractText(TempFilePath(env), env.probe, env.read);
            x.Success? && StoredChunks(x.value) == [] ==> r == HttpError(500, ErrorPrefix + NoChunksText)
    ensures var x := ExtractText(TempFilePath(env), env.probe, env.read);
            x.Success? && StoredChunks(x.value) != [] ==>
              var outcome := env.store(StoredChunks(x.value), ResolveMetadata(env.metadataField, env.filename, env.parseJson));
              (outcome.Fail? ==> r == HttpError(500, ErrorPrefix + outcome.error)) &&
              (outcome == Pass ==> r == Uploaded(|StoredChunks(x.value)|))
  {
    match ExtractText(TempFilePath(env), env.probe, env.read)
    case Failure(e) => HttpError(500, ErrorPrefix + e)
    case Success(text) =>
      var chunks := StoredChunks(text);
      if chunks == [] then HttpError(500, ErrorPrefix + NoChunksText)
      else
        var metadata := ResolveMetadata(env.metadataField, env.filename, env.parseJson);
        match env.store(chunks, metadata)
        case Fail(e) => HttpError(500, ErrorPrefix + e)
        case Pass => Uploaded(|chunks|)
  }

  /** The temporary file is always read with the reader its chosen extension
      names; the content-sniffing fallback is never reached. */
  lemma UploadReadsChosenFormat(env: Env)
    requires IsPlainName(env.tempName)
    ensures ExtractText(TempFilePath(env), env.probe, env.read) ==
              env.read(FormatOf(GetFileExtension(env.filename, env.contentType)).value)
  {
    var ext := GetFileExtension(env.filename, env.contentType);
    var f := FormatOf(ext).value;
    TempFileReadByExtension(env.tempDir, env.tempName, f, env.probe, env.read);
  }

  /** A text with nothing but whitespace is refused, and the refusal arrives
      as a 500, not the 422 the handler raised. */
  lemma NoChunksIs500(env: Env, text: string)
    requires ExtractText(TempFilePath(env), env.probe, env.read) == Success(text)
    requires AllSpace(text)
    ensures UploadFile(env) == HttpError(500, ErrorPrefix + NoChunksText)
  {
    BlankTextHasNoChunks(text);
  }

  /** A whitespace-only document, an empty one included, yields no storable
      chunk and so is refused. */
  lemma BlankTextHasNoChunks(text: string)
    requires AllSpace(text)
    ensures StoredChunks(text) == []
  {
    var chunks := Chunks(Paragraphs(text), DefaultMaxTokens);
    BlankTextChunksEmpty(text, DefaultMaxTokens);
    FilterNothingKept(chunks, Storable);
  }

  /** Conversely, a document with any non-whitespace character keeps at least
      one chunk, so the no-chunks refusal hits exactly the blank documents. */
  lemma StoredChunksEmptyIffBlank(text: string)
    ensures StoredChunks(text) == [] <==> AllSpace(text)
  {
    var chunks := Chunks(Paragraphs(text), DefaultMaxTokens);
    if AllSpace(text) {
      BlankTextHasNoChunks(text);
    } else {
      ChunksEmptyIffBlank(text, DefaultMaxTokens);
      var c :| c in chunks && c != [];
      var k :| 0 <= k < |chunks| && chunks[k] == c;
      ChunksAreJoinedGroups(Paragraphs(text), DefaultMaxTokens);
      StripIdempotent(Join(Pack(Paragraphs(text), DefaultMaxTokens)[k], Sep));
      FilterMembers(chunks, Storable);
      assert c in StoredChunks(text);
    }
  }

  /** The detail the no-chunks exception carries. */
  const NoChunksDetail := "No valid text chunks could be created from the file"

  /** `upload_file` with the no-chunks refusal reaching the client as the
      422 it raises; every other outcome is as before. */
  function UploadFileCorrected(env: Env): (r: UploadResponse)
    ensures r.HttpError? ==> (r.status == 500 && ErrorPrefix <= r.detail) || r == HttpError(422, NoChunksDetail)
    ensures r != HttpError(422, NoChunksDetail) ==> r == UploadFile(env)
  {
    match ExtractText(TempFilePath(env), env.probe, env.read)
    case Success(text) =>
      if StoredChunks(text) == [] then HttpError(422, NoChunksDetail) else UploadFile(env)
    case Failure(_) => UploadFile(env)
  }

  /** Corrected: a document with no storable chunk is refused with 422 and
      the bare detail, and only such a document is. */
  lemma NoChunksIs422(env: Env)
    ensures UploadFileCorrected(env) == HttpError(422, NoChunksDetail) <==>
            ExtractText(TempFilePath(env), env.probe, env.read).Success? &&
            StoredChunks(ExtractText(TempFilePath(env), env.probe, env.read).value) == []
    ensures UploadFileCorrected(env) == HttpError(422, NoChunksDetail) <==>
            ExtractText(TempFilePath(env), env.probe, env.read).Success? &&
            AllSpace(ExtractText(TempFilePath(env), env.probe, env.read).value)
  {
    var x := ExtractText(TempFilePath(env), env.probe, env.read);
    if x.Success? {
      StoredChunksEmptyIffBlank(x.value);
    }
  }
}

=== FILE: wrappers.dfy ===
/** Optional values and success-or-error results, standing in for Python's
    `None` and raised exceptions and for JavaScript's `null`/`undefined`. */
module Wrappers {

  datatype Option<+T> = None | Some(value: T) {
    function GetOr(default: T): T {
      match this
      case Some(v) => v
      case None => default
    }
  }

  /** The outcome of a call that may raise: either its value or the error text. */
  datatype Result<+T, +E> = Success(value: T) | Failure(error: E)

  /** The outcome of a call made for its effect only. */
  datatype Outcome<+E> = Pass | Fail(error: E)
}
